=== FILE: README.md ===
# A verified model of a pipelined MIPS-subset simulator

The original program builds a five-stage pipelined processor out of
components of a small event-driven circuit library and then clocks it.
The processor has IF/ID, ID/EX, EX/MEM and MEM/WB latch banks, forwarding,
a load-use stall unit, and branch and jump resolution in decode. This
project models the program in Dafny in four layers:

- `hdl.dfy` (module `Hdl`) covers the propagation rule of `Output#set`:
  a change goes to every bound input, and an unchanged value goes nowhere.
  It also covers `>>` wiring and input slots that store a value and
  re-execute their owner.
- `bits.dfy`, `gates.dfy`, `memory.dfy` and `registers.dfy` (modules
  `Bits`, `Gates`, `Memory`, `Registers`) model the generic components:
  - bit slicer, sign extender, shifter, gates, adder and multiplexer, on
    Ruby's unbounded integers and with Ruby's array indexing;
  - the ALU;
  - the byte memory, which reads little-endian 32-bit words and commits
    writes at the clock edge;
  - the two-phase `Register`, the `Clock`, and the 32-entry register bank
    with its same-cycle write-to-read bypass.
- `cpu.dfy` (module `Cpu`) models the processor units: control decode,
  ALU control, forwarding, hazard detection, and the `System` unit that
  latches the halt line and counts retired instructions.
- `datapath.dfy`, `encoding.dfy` and `pipeline.dfy` (modules `Datapath`,
  `Encoding`, `Pipeline`):
  - `Datapath.Step` is the wiring of the simulator as one function per
    clock cycle. It takes the state at the end of a cycle, evaluates the
    combinational logic at its fixed point (`Comb`), then applies the
    clock edge (`Advance`).
  - `Datapath.Run` is the driver loop. It tests the halt flag before
    every tick and stops at a cycle limit.
  - `Pipeline` states what a cycle means, stage by stage, without the
    multiplexer plumbing. It proves these rules from the wiring, and
    proves what holds over whole runs.

Signal values are `Option<int>`, where `None` is Ruby's `nil`. A Ruby
exception becomes an `Err` of the `Result` type. Three things can raise:

- a memory read (`nil.pack`) whose start lies beyond the end of memory or
  below minus its length. This is the fetch at the PC, or the data memory
  reading at any ALU result that reaches EX/MEM, whatever the instruction;
- a store below minus the memory length (`IndexError`);
- a register write to an index the bank cannot resolve.

A well-formed state can only fail through memory; `Pipeline.OnlyMemoryFaults`
proves this for the combinational phase.

Two component outputs are not functions of the current inputs, because
the change-only rule leaves them stale. The state records them explicitly:

- ALU control keeps its previous output under `:f` with an unknown
  function code. Its function code also reaches it before its `alu_op`
  does.
- The data memory output is re-read only when one of its inputs changes.

Everything else is evaluated at its fixed point.

Where the code and its own comments or the usual reading of its design differ, the model follows the code:

- A memory read with fewer than four bytes left yields `nil`, not a
  zero-padded word. A start beyond the end raises instead of yielding zero.
- A store at an address below minus the memory length raises. It is not
  dropped silently.
- A load-use stall does not always last one cycle (see Findings).

The branch target is the current PC register plus four times the
immediate. Because the PC already points past the branch while the branch
is decoded, this equals the usual "branch address + 4" target.

## Model

| member | source | states |
|---|---|---|
| Hdl.SetChangeOnly | hdl.rb:18-26 | after `set(v)` the output holds `v` with its wiring unchanged; every bound input is notified iff `v` differs from the held value, otherwise nothing happens |
| Hdl.SetIdempotent | hdl.rb:18-26 | repeating a `set` with the same value notifies nobody and changes nothing |
| Hdl.FreshNilIsSilent | hdl.rb:15-26 | a fresh output already holds nil, so setting it to nil notifies none of its inputs |
| Hdl.Set | hdl.rb:18-26 | after `set(v)` the output holds `v` with the same wiring; only bound inputs are notified, all of them when `v` differs from the held value and none otherwise |
| Hdl.Wire | hdl.rb:28-40 | `>>` returns its destination, keeps the held value, and binds exactly the input for the destination; for an output destination this is always a new relay, so the bound set grows by one; for a component or input destination the set grows iff that input was not yet bound |
| Hdl.WireTwiceIsOnce | hdl.rb:16-37 | bound inputs form a set: wiring the same component or input destination twice equals wiring it once, and a change notifies it once |
| Hdl.WireOutputTwiceRelaysTwice | hdl.rb:28-37 | wiring the same output destination twice binds two distinct relays, and a change then notifies both |
| Hdl.Deliver | hdl.rb:89-95 | a slot delivery runs exactly its owner's `execute`, leaves every output and every other component's slots alone and notifies nothing; a relay delivery runs no `execute`, sets its target to the value with its wiring kept, leaves every other output and every slot alone, and notifies only inputs bound to that target |
| Hdl.SlotDeliveryStoresThenExecutes | hdl.rb:89-95 | invoking an input slot stores the value under the slot's name, keeps the owner's other slots, every other component's slots and all outputs, and runs exactly the owner's `execute` |
| Hdl.RelayForwardsBySet | hdl.rb:29-31 | output-to-output wiring forwards by `set`: the target becomes what `set` makes of it, holding the value with its wiring kept, its inputs are pending iff it changed, and no other output and no slot changes |
| Bits.MaskIsMod | std_components.rb:83 | `x & (2^k - 1)` equals `x mod 2^k` for every integer, negative ones included |
| Gates.SignExtend16 | std_components.rb:67-69 | the result lies in [-32768, 32767], agrees with the input modulo 2^16, and equals the input when it is a non-negative 15-bit value |
| Encoding.SignExtendRoundTrip | std_components.rb:67-69 | sign extension inverts the 16-bit two's-complement encoding of every 16-bit signed value |
| Gates.Slice | std_components.rb:82-84 | the slice `from..to` is a non-negative number below 2^(from-to+1), whatever the sign of the input |
| Gates.SliceIsMask | std_components.rb:82-84 | the slice is exactly Ruby's `(n >> to) & (2^(from-to+1) - 1)`, negative inputs included |
| Gates.Adder | std_components.rb:56-58 | the sum minus `in2` is `in1` (nil read as 0), so an undriven `in2` passes `in1` through |
| Gates.ShiftLeft | std_components.rb:96-98 | the low `amount` bits of the result are zero and its sign is the input's |
| Gates.AndGate | std_components.rb:106-108 | a zero or undriven input on either side forces the result to 0 |
| Gates.OrGate | std_components.rb:126-128 | a zero or undriven input on either side passes the other input through unchanged |
| Gates.ShiftLeftLosesNothing | std_components.rb:96-98 | shifting left by `k` and back right gives the input: unbounded shifts lose no bits |
| Gates.GatesOnBits | std_components.rb:106-128 | on one-bit inputs (nil read as 0) the AND and OR gates yield one bit and act as logical and/or |
| Gates.NotGate | std_components.rb:116-118 | the result is a bit, and it is 0 exactly when the input is 1 (anything else, nil included, gives 1) |
| Gates.EqualityTest | std_components.rb:136-138 | the result is a bit, and it is 1 iff the raw inputs are equal (nil equals nil) |
| Gates.RubyIndex | std_components.rb:163 | Ruby array indexing: defined iff `-n <= i < n`, negative indices count from the end, and the index is always in range |
| Gates.MuxSelect | std_components.rb:162-164 | the multiplexer yields the input at the selector, counting from the end for a negative selector, input 0 for a nil selector, and nil past either end |
| Gates.Alu | std_components.rb:267-271 | the zero flag is a bit set iff the result is 0; subtraction gives zero iff the operands are equal; with no control or `+` the result minus in2 is in1; with `-` the result plus in2 is in1 |
| Memory.LittleEndian | std_components.rb:21 | the four bytes produced assemble little-endian to the write data modulo 2^32 |
| Memory.Read | std_components.rb:11-13 | a read raises iff its start lies beyond the end or below minus the length; a negative start counts from the end; four available bytes give their little-endian unsigned word; fewer give nil |
| Memory.StoreBytes | std_components.rb:22-26 | a store of at least one byte from below minus the length raises; a successful store leaves the array as long as the larger of its old length and the end of the last byte |
| Memory.StoreBytesOverlay | std_components.rb:23-25 | storing bytes one by one from a non-negative address overlays exactly those positions, growing the array past its end |
| Memory.InRangeStoreSucceeds | std_components.rb:22-25 | a store from an address in `-length..length` never raises |
| Memory.NegativeStoreOverlay | std_components.rb:22-26 | bytes that all land at negative indices form one overlay at the wrapped start, and the length is kept |
| Memory.WrappedStore | std_components.rb:22-26 | from an address in `-length..-1` the bytes at negative indices overlay the end of the array, then the rest overlay it from index 0 |
| Memory.Tick | std_components.rb:19-27 | memory changes only when `mem_write` is 1 and the address is below the length; it raises only below minus the length; from a non-negative address it overlays the low 32 bits little-endian; from `-length..-1` the bytes wrap to the end and the rest land from index 0; memory never shrinks |
| Memory.WriteThenRead | std_components.rb:11-27 | after a committed write of `w` at an in-range address, a read there yields `w mod 2^32` |
| Memory.WrappedWriteThenRead | std_components.rb:11-27 | after a committed write of `w` at an address in `-length..-4`, a read at that address yields `w mod 2^32` |
| Memory.WriteKeepsOtherBytes | std_components.rb:19-27 | a committed write from an address in `0..length-1` leaves every byte outside the written word unchanged |
| Memory.WrappedWriteKeepsOtherBytes | std_components.rb:19-27 | a committed write from an address in `-length..-1` leaves every byte unchanged except the ones it overwrites at the end and, when the word wraps past index -1, from index 0 |
| Registers.TickPrep | std_components.rb:181-183 | `tick_prep` captures the input without changing the input or the published value |
| Registers.Tick | std_components.rb:185-188 | `tick` publishes exactly the captured value and leaves the input and the capture alone |
| Registers.PrepareThenCommit | std_components.rb:181-192 | `tick_prep` does not change the published value; the following `tick` publishes the input seen at preparation |
| Registers.ClockTick | std_components.rb:287-294 | with every `tick_prep` before any `tick`, each register of a chain takes its predecessor's pre-edge value |
| Registers.TickInTurnLosesValues | std_components.rb:177-188 | ticking chained registers one at a time would push the incoming value through the whole chain, the data loss the two-phase clock avoids |
| Registers.Stage | std_components.rb:222-226 | with `reg_write` 1 exactly the indexed register takes the write data and the others keep their values; otherwise nothing changes; the write raises iff the index is unresolvable |
| Registers.ReadPort | std_components.rb:227-241 | a read whose index equals `write_reg` while `reg_write` is 1 yields the write data; otherwise index `length` yields the extra slot and anything beyond it nil (reads of a real register are stated by `Registers.ReadPortBypass`) |
| Registers.ReadPortBypass | std_components.rb:227-241 | a read of register `k` returns the pending write data iff `k` is being written, else the stored value; the extra mux slot is never seen |
| Registers.BypassAgreesWithCommit | std_components.rb:222-250 | the bypassed read equals the read of the same register after the clock edge |
| Registers.RegisterZeroNotClamped | std_components.rb:224-231 | register 0 is ordinary storage: writes to it are kept and a same-cycle read sees them |
| Cpu.Decode | cpu_components.rb:18-34 | every control line is a bit; `mem_read` equals `mem_to_reg`; `reg_dst` implies `reg_write`; a store writes no register and uses the immediate; at most one of jump, branch, store, halt and register write is set |
| Cpu.DecodeFollowsTable | cpu_components.rb:16-37 | the line-by-line decoder equals the instruction table row by row, and an unknown opcode gives all lines 0, `alu_op` `:+` and no name |
| Cpu.AluControl | cpu_components.rb:47-56 | under `:f` function 0x20 gives `+` and any other function keeps the previous output; any other `alu_op`, nil included, goes straight through |
| Cpu.AluControlIdempotent | cpu_components.rb:47-56 | re-running ALU control on unchanged inputs changes nothing |
| Cpu.AluControlKeepsOnlyOnUnknownFunct | cpu_components.rb:48-52 | the previous output matters only under `:f` with a function code other than 0x20 |
| Cpu.Forwarding | cpu_components.rb:67-92 | both selectors are always in {0, 1, 2} |
| Cpu.ForwardingPriority | cpu_components.rb:67-92 | `forward_a` depends only on rs and `forward_b` only on rt, by the same rule: 2 iff EX/MEM writes that nonzero register, else 1 iff MEM/WB does, else 0 |
| Cpu.RegisterZeroNeverForwarded | cpu_components.rb:69-87 | a source register 0 is never forwarded |
| Cpu.HazardDetection | cpu_components.rb:102-114 | `nop` is 1 iff ID/EX is a load whose rt equals the IF/ID rs or rt (register 0 included); `pc_write` and `if_id_write` are its complement |
| Cpu.SystemTickPrep | cpu_components.rb:123-126 | preparing captures `terminate` and `real` and changes neither the count nor the halt flag |
| Cpu.SystemTick | cpu_components.rb:128-134 | after the tick the count is defined, never lower than before, and one higher iff the captured `real` was 1; the halt query holds iff the captured `terminate` was 1 |
| Cpu.SystemEdge | cpu_components.rb:123-142 | preparing changes nothing visible; after the tick the count is defined and has risen by one iff `real` was 1; the halt query reflects the captured `terminate`; the count starts nil |
| Encoding.SplitFollowsSlicers | simulator.rb:100-105 | the decode stage's fields are the bit slicers `31..26`, `25..21`, `20..16`, `15..11`, `5..0` and `25..0` of the IF/ID word, and the immediate is slice `15..0` through the 16-bit sign extender |
| Encoding.SplitEncodeI | simulator.rb:100-105 | slicing an I-type word gives back its opcode, rs, rt and signed immediate |
| Encoding.SplitEncodeR | simulator.rb:100-104 | slicing an R-type word gives back rs, rt, rd and the function code (opcode 0) |
| Encoding.SplitEncodeJ | simulator.rb:196 | slicing a J-type word gives back its opcode and 26-bit target field |
| Datapath.Fallible | simulator.rb:85-86 | a state's two raising evaluations fail iff MEM/WB writes a register the bank cannot index, or the PC lies beyond the end of instruction memory or below minus its length |
| Datapath.Comb | simulator.rb:54-268 | a cycle's signals settle exactly when its raising evaluations succeed, and the staged register file is theirs |
| Datapath.NextAluCtl | simulator.rb:170-173 | with neither input changed ALU control keeps its output; with either changed, an `alu_op` other than `:f` passes its function through, and a new nil `alu_op` gives nil |
| Datapath.NextDmemOut | simulator.rb:214-218 | the output is kept when address, write data and `mem_write` all repeat; otherwise it is re-read, which raises iff the new address lies beyond the end or below minus the length, and gives the little-endian word when four bytes are available |
| Datapath.Advance | simulator.rb:258-268 | the edge keeps instruction memory, never shrinks data memory, latches the pre-edge memory output into MEM/WB, marks IF/ID started, and retires at most one instruction |
| Datapath.Step | simulator.rb:54-268 | a successful cycle keeps instruction memory, never shrinks data memory, retires at most one instruction, and starts from and ends in a state whose fetch and register write do not raise |
| Datapath.Initial | simulator.rb:62-68 | start-up succeeds iff the image has at least 4096 bytes (on exactly 4096 bytes the first fetch reads nil); both memories are then the image and the system unit is fresh |
| Datapath.Loop | simulator.rb:283-330 | a loop that ends on the halt flag has latched it and stays within the limit; one that does not ends exactly at the limit (or where it started, if already past it) |
| Datapath.Run | simulator.rb:283-330 | a run that ends on the halt flag has latched it and stays within the limit; otherwise it ends exactly at the cycle limit |
| Pipeline.InitialWellFormed | simulator.rb:62-68 | start-up succeeds iff the image has at least 4096 bytes (on exactly 4096 bytes the first fetch reads nil); the PC is then 4096, data memory is the image, every register is nil, and there is no halt and no count |
| Pipeline.OnlyMemoryFaults | simulator.rb:85-86 | in a well-formed state a cycle's signals fail to settle exactly when the PC lies outside instruction memory, and then with `nil.pack` |
| Pipeline.CombDecodes | simulator.rb:98-138 | decode yields the fields and control lines of the IF/ID word, stalls iff the load-use condition holds, reads registers with the writeback bypass, and takes a branch iff BEQ's two un-forwarded reads are equal |
| Pipeline.NextPcRule | simulator.rb:177-210 | the next PC is the PC on a stall, else the jump field times 4 (no high PC bits), else PC + 4*immediate on a taken branch, else PC+4 |
| Pipeline.NextInstrRule | simulator.rb:88-107 | IF/ID takes 0 behind a taken branch or jump, keeps its word on a stall, and otherwise takes the fetched word |
| Pipeline.CombFetches | simulator.rb:177-210 | a settled cycle follows the next-PC and next-IF/ID rules above, and its fetch does not raise |
| Pipeline.CombIssues | simulator.rb:243-250 | a bubble forces `reg_write` and `mem_write` to 0; the instruction entering ID/EX is real iff IF/ID was started, not flushed, and not stalled |
| Pipeline.CombExecutes | simulator.rb:140-173 | each ALU operand comes from the most recent producer of its register; the second operand is the immediate iff `alu_src` is 1; the destination is rd iff `reg_dst` is 1, else rt |
| Pipeline.CombWritesBack | simulator.rb:229-239 | the writeback value is the memory data iff `mem_to_reg` is 1, else the ALU result; exactly the indexed register takes it, only when `reg_write` is 1 |
| Pipeline.CombSettles | simulator.rb:54-268 | every well-formed state whose PC lies within instruction memory settles, and its signals obey all the stage rules at once |
| Pipeline.AluCtlStaysSettled | simulator.rb:170-173 | across an edge ALU control stays a fixed point of its inputs, so it equals the function of the decoded `alu_op` and function code unless `:f` meets an unimplemented code |
| Pipeline.DmemOutFresh | simulator.rb:214-218 | after an edge the data memory output is the read at the new EX/MEM address whenever the memory's inputs changed or EX/MEM held no store; only a store whose address, data and write line all repeat leaves it stale |
| Pipeline.AdvanceLatches | simulator.rb:258-268 | the edge latches the PC, the four latch banks, the register file and the system unit from pre-edge values, and data memory commits EX/MEM's write |
| Pipeline.EdgeWellFormed | simulator.rb:54-59 | an edge keeps every latch a bit or a 5-bit register index and keeps the 32 registers |
| Pipeline.EdgeShiftsLatches | simulator.rb:56-59 | every EX/MEM and MEM/WB entry takes the pre-edge value of the same-named entry one bank earlier; the MEM/WB memory data is the data memory output |
| Pipeline.EdgeFetches | simulator.rb:199-210 | after an edge the PC follows the next-PC rule, IF/ID is squashed to 0 with `flushed` 1 behind a taken branch or jump, holds its word on a stall, and is marked started |
| Pipeline.EdgeWritesBack | simulator.rb:229-237 | after an edge exactly the register MEM/WB names has changed, only when its `reg_write` is 1, to the memory data or the ALU result as `mem_to_reg` says |
| Pipeline.EdgeRetires | simulator.rb:243-250 | ID/EX becomes real iff IF/ID was started, unflushed and not stalled; the count rises by one iff MEM/WB was real; the halt flag latches EX/MEM's `terminate` |
| Pipeline.StepWellFormed | simulator.rb:54-268 | a successful cycle from a well-formed state ends in a well-formed state |
| Pipeline.RunWellFormed | simulator.rb:283-330 | every successful run from a well-formed state ends in a well-formed state, so the stage rules apply at every cycle |
| Pipeline.StepCounts | simulator.rb:250 | one clock cycle retires at most one instruction |
| Pipeline.RunStopsBeforeTicking | simulator.rb:327-329 | once the halt flag is latched, the run ends in that iteration with the state untouched and the cycle counted |
| Pipeline.RunAccounting | simulator.rb:283-330 | a run ends on the halt flag or exactly at the cycle limit, and no more instructions retire than cycles pass (CPI at least 1) |
| Pipeline.LoadAfterLoadStalls | cpu_components.rb:103-108 | a load that uses the destination of the load ahead of it is stalled, and its bubble reaches the stalled-load state |
| Pipeline.StalledLoadStallsAgain | simulator.rb:113-121 | as written, a stalled load stalls again: the PC and IF/ID stay put and nothing real enters ID/EX |
| Pipeline.LivelockEdge | simulator.rb:113-138 | as written, a cycle that starts from a stalled load with no halt in flight and does not fail ends in the same situation at the same PC, still well-formed and not halted |
| Pipeline.StalledLoadNeverHalts | simulator.rb:135-138 | as written, from a stalled load with no halt in flight, every run that does not fail ends on the cycle limit with the PC unchanged |
| Pipeline.LoadPairEncoding | simulator.rb:101-103 | `LW R1,0(R0); LW R2,0(R1)` encodes a second load whose rs is the first load's destination |
| Pipeline.StallLastsOneCycle | cpu_components.rb:102-114 | when the bubble clears `mem_read`, the cycle after a stall never stalls |
| Pipeline.StallOfNonLoadLastsOneCycle | simulator.rb:135 | as written, a stall lasts one cycle whenever the stalled instruction is not itself a load |

## Left out

- Command-line options, the interactive wait loop, and all debug and summary printing: I/O with no effect on the datapath. This includes the `to_s`/`inspect` methods and the CPI, which is a float division; `Pipeline.RunAccounting` proves the integer fact CPI >= 1 instead.
- `Memory.from_dump`: the memory image is a parameter of `Datapath.Initial`.
- Ruby metaprogramming (`IOHash`, `inputs`/`outputs` accessors, the Mux metaclass slots, `ObjectSpace` enumeration and `start_all`): replaced by fixed records and sequences.
- The depth-first callback order of propagation within a cycle: each cycle is evaluated at its fixed point. The model keeps only the two places where change-only propagation leaves a stale value behind (ALU control and the data memory output). Transient glitches within a cycle, and whether propagation terminates on arbitrary cyclic wiring, are not modelled.
- The unbounded driver loop (no `--terminate`): `Datapath.Run` always takes a cycle limit. Every property holds for every limit.
- The debug-name entries of the latch banks are carried but not used. Latch entries that nothing reads (created lazily by the hash default block) are not modelled.
- The register bank's extra mux slot is left nil. No 5-bit read index selects it, and `Registers.ReadPortBypass` shows its value is never seen.
- Memory.StoreByte: its precondition (index at most the length) excludes the nil padding Ruby would insert further out. A word store from below the length never reaches that far.
- Pipeline.ExecuteRules: the ALU operation is stated through the ALU control output latched in the state. `Pipeline.AluCtlStaysSettled` relates that output to the decoded `alu_op`; `Pipeline.CombExecutes` does not restate it.
- Hdl.WireTwiceIsOnce: holds only for component and input destinations. Wiring an output destination twice binds two relays (`Hdl.WireOutputTwiceRelaysTwice`).
- Pipeline.StalledLoadNeverHalts: requires that no halt instruction is already in ID/EX or EX/MEM. A halt in flight still ends the run.

## Findings

| source | as written | input that shows it | evidently intended | confidence | as-written member | corrected member |
|---|---|---|---|---|---|---|
| simulator.rb:135 | the stall bubble forces only `reg_write` and `mem_write` to 0; it keeps `mem_read` and the stalled instruction's rt. When the stalled instruction is a load, ID/EX then names a load into the IF/ID rt, and the hazard unit stalls again on every later cycle | `LW R1,0(R0); LW R2,0(R1)`: the second load stalls for ever and the program never halts | a bubble clears `mem_read` too, so a load-use stall lasts one cycle | not executed | Pipeline.StalledLoadNeverHalts | Pipeline.StallLastsOneCycle |

In the model the bubble is chosen by `Datapath.Variant`.
`Pipeline.StalledLoadNeverHalts`, `Pipeline.StalledLoadStallsAgain` and
`Pipeline.LoadAfterLoadStalls` are proved for the code as written
(`AsWritten`). `Pipeline.StallLastsOneCycle` is proved for the corrected
bubble (`BubbleClearsMemRead`).

=== FILE: bits.dfy ===
/** Integer bit operations with Ruby's semantics: integers are unbounded
    and behave as infinite two's-complement bit strings, `>>` rounds
    toward minus infinity, `&` and `|` act bitwise. */
module Bits {

  function Pow2(k: nat): (r: nat)
    ensures r >= 1
  {
    if k == 0 then 1 else 2 * Pow2(k - 1)
  }

  /** Distance of `a` from the fixed points 0 and -1 of halving. */
  function Rank(a: int): nat {
    if a < 0 then -a - 1 else a
  }

  lemma HalfRank(a: int)
    ensures Rank(a / 2) <= Rank(a)
    ensures Rank(a) > 0 ==> Rank(a / 2) < Rank(a)
  {
  }

  predicate Settled(a: int) {
    a == 0 || a == -1
  }

  /** Ruby `a & b`. */
  function BitAnd(a: int, b: int): int
    decreases Rank(a) + Rank(b)
  {
    if Settled(a) && Settled(b) then
      (if a == -1 && b == -1 then -1 else 0)
    else
      HalfRank(a); HalfRank(b);
      2 * BitAnd(a / 2, b / 2) + (if a % 2 == 1 && b % 2 == 1 then 1 else 0)
  }

  /** Ruby `a | b`. */
  function BitOr(a: int, b: int): int
    decreases Rank(a) + Rank(b)
  {
    if Settled(a) && Settled(b) then
      (if a == -1 || b == -1 then -1 else 0)
    else
      HalfRank(a); HalfRank(b);
      2 * BitOr(a / 2, b / 2) + (if a % 2 == 1 || b % 2 == 1 then 1 else 0)
  }

  /** Ruby `n >> k` for k >= 0. */
  function ShiftRight(n: int, k: nat): int {
    n / Pow2(k)
  }

  /** On one-bit operands `&` and `|` are logical and / or. */
  lemma BitOpsOnBits(a: int, b: int)
    requires a == 0 || a == 1
    requires b == 0 || b == 1
    ensures BitAnd(a, b) == (if a == 1 && b == 1 then 1 else 0)
    ensures BitOr(a, b) == (if a == 1 || b == 1 then 1 else 0)
  {
  }

  lemma {:induction false} AndZero(x: int)
    ensures BitAnd(x, 0) == 0
    decreases Rank(x)
  {
    if !Settled(x) {
      HalfRank(x);
      AndZero(x / 2);
    }
  }

  /** `x | 0 == x`: or-ing in a zero changes no bit. */
  lemma {:induction false} OrZero(x: int)
    ensures BitOr(x, 0) == x
    decreases Rank(x)
  {
    if !Settled(x) {
      HalfRank(x);
      OrZero(x / 2);
    }
  }

  /** `&` and `|` do not depend on the order of their operands. */
  lemma {:induction false} BitOpsCommute(a: int, b: int)
    ensures BitAnd(a, b) == BitAnd(b, a)
    ensures BitOr(a, b) == BitOr(b, a)
    decreases Rank(a) + Rank(b)
  {
    if !(Settled(a) && Settled(b)) {
      HalfRank(a);
      HalfRank(b);
      BitOpsCommute(a / 2, b / 2);
    }
  }

  lemma ModUnique(x: int, d: int, t: int, u: int)
    requires d > 0 && 0 <= u < d && x == d * t + u
    ensures x % d == u
    ensures x / d == t
  {
    var q, r := x / d, x % d;
    assert x == d * q + r;
    if q > t {
      assert d * q >= d * (t + 1) by { MulMono(d, t + 1, q); }
    } else if q < t {
      assert d * t >= d * (q + 1) by { MulMono(d, q + 1, t); }
    }
  }

  lemma MulMono(d: int, a: int, b: int)
    requires d > 0 && a <= b
    ensures d * a <= d * b
  {
  }

  /** One halving step of `x % 2^k`: the low bit, then the rest. */
  lemma ModDouble(x: int, p: int)
    requires p > 0
    ensures x % (2 * p) == 2 * ((x / 2) % p) + x % 2
  {
    var s, t := (x / 2) % p, (x / 2) / p;
    assert x / 2 == p * t + s;
    assert x == (2 * p) * t + (2 * s + x % 2);
    ModUnique(x, 2 * p, t, 2 * s + x % 2);
  }

  /** Masking with `2^k - 1` keeps the residue modulo `2^k`, also for
      negative numbers (the residue is never negative). */
  lemma {:induction false} MaskIsMod(x: int, k: nat)
    ensures BitAnd(x, Pow2(k) - 1) == x % Pow2(k)
    decreases k
  {
    if k == 0 {
      AndZero(x);
    } else {
      var p := Pow2(k - 1);
      var m := Pow2(k) - 1;
      assert m / 2 == p - 1 && m % 2 == 1 && !Settled(m);
      calc {
        BitAnd(x, m);
        2 * BitAnd(x / 2, p - 1) + x % 2;
        { MaskIsMod(x / 2, k - 1); }
        2 * ((x / 2) % p) + x % 2;
        { ModDouble(x, p); }
        x % Pow2(k);
      }
    }
  }
}

=== FILE: cpu.dfy ===
/** The processor-specific units of `cpu_components.rb`: the control
    decoder, ALU control, the forwarding unit, the load-use hazard
    detector and the `System` unit that latches the halt line and counts
    retired instructions. */
module Cpu {
  import opened Wrappers
  import opened Gates

  const RTYPE: int := 0x00
  const ADDI: int := 0x08
  const BEQ: int := 0x04
  const J: int := 0x02
  const LW: int := 0x23
  const SW: int := 0x2B
  const HLT: int := 0x3F

  /** The debug names of `Control::NAME`. */
  datatype Mnemonic = RType | Addi | Beq | Jump | Lw | Sw | Hlt

  /** `Control.instr_name`: a hash lookup, nil for an unknown opcode. */
  function InstrName(opcode: int): Option<Mnemonic> {
    if opcode == RTYPE then Some(RType)
    else if opcode == ADDI then Some(Addi)
    else if opcode == BEQ then Some(Beq)
    else if opcode == J then Some(Jump)
    else if opcode == LW then Some(Lw)
    else if opcode == SW then Some(Sw)
    else if opcode == HLT then Some(Hlt)
    else None
  }

  /** The `alu_op` symbols: `:f` (take the function field) or `:+`/`:-`. */
  datatype AluOp = Funct | Arith(fn: AluFn)

  datatype ControlLines = ControlLines(
    regDst: int, jump: int, branch: int, memToReg: int, memRead: int,
    aluOp: AluOp, memWrite: int, aluSrc: int, regWrite: int,
    debugName: Option<Mnemonic>, terminate: int)

  function Bit(b: bool): int {
    if b then 1 else 0
  }

  predicate IsBit(x: int) {
    x == 0 || x == 1
  }

  /** `Control#execute`, computed one control line at a time. */
  function Decode(opcode: int): (c: ControlLines)
    ensures IsBit(c.regDst) && IsBit(c.jump) && IsBit(c.branch) && IsBit(c.memToReg) && IsBit(c.memRead)
    ensures IsBit(c.memWrite) && IsBit(c.aluSrc) && IsBit(c.regWrite) && IsBit(c.terminate)
    ensures c.memRead == c.memToReg
    ensures c.regDst == 1 ==> c.regWrite == 1
    ensures c.memWrite == 1 ==> c.regWrite == 0 && c.aluSrc == 1
    ensures c.jump + c.branch + c.memWrite + c.terminate + c.regWrite <= 1
  {
    ControlLines(
      regDst := Bit(opcode == RTYPE),
      jump := Bit(opcode == J),
      branch := Bit(opcode == BEQ),
      memToReg := Bit(opcode == LW),
      memRead := Bit(opcode == LW),
      aluOp := if opcode == RTYPE then Funct else if opcode == BEQ then Arith(Minus) else Arith(Plus),
      memWrite := Bit(opcode == SW),
      aluSrc := Bit(opcode == ADDI || opcode == LW || opcode == SW),
      regWrite := Bit(opcode == RTYPE || opcode == ADDI || opcode == LW),
      debugName := InstrName(opcode),
      terminate := Bit(opcode == HLT))
  }

  /** The lines of an unknown opcode: everything 0, `alu_op` is `:+`. */
  const Inert: ControlLines :=
    ControlLines(0, 0, 0, 0, 0, Arith(Plus), 0, 0, 0, None, 0)

  /** The decode table written row by row, one row per instruction. */
  function TableRow(opcode: int): Option<ControlLines> {
    if opcode == RTYPE then Some(Inert.(aluOp := Funct, regDst := 1, regWrite := 1, debugName := Some(RType)))
    else if opcode == ADDI then Some(Inert.(aluSrc := 1, regWrite := 1, debugName := Some(Addi)))
    else if opcode == BEQ then Some(Inert.(aluOp := Arith(Minus), branch := 1, debugName := Some(Beq)))
    else if opcode == J then Some(Inert.(jump := 1, debugName := Some(Jump)))
    else if opcode == LW then Some(Inert.(aluSrc := 1, memRead := 1, memToReg := 1, regWrite := 1, debugName := Some(Lw)))
    else if opcode == SW then Some(Inert.(aluSrc := 1, memWrite := 1, debugName := Some(Sw)))
    else if opcode == HLT then Some(Inert.(terminate := 1, debugName := Some(Hlt)))
    else None
  }

  /** The line-by-line decoder agrees with the row-by-row table on every
      opcode, and an unknown opcode yields the inert lines. */
  lemma DecodeFollowsTable(opcode: int)
    ensures TableRow(opcode).Some? ==> Decode(opcode) == TableRow(opcode).value
    ensures TableRow(opcode).None? ==> Decode(opcode) == Inert
    ensures TableRow(opcode).None? <==> InstrName(opcode).None?
  {
  }

  /** `ALUControl#execute`.  Under `:f` only function code 0x20 sets the
      output; any other code leaves it as it was (`previous`).  Any other
      `alu_op`, nil included, goes straight through. */
  function AluControl(aluOp: Option<AluOp>, funct: int, previous: Option<AluFn>): (r: Option<AluFn>)
    ensures aluOp != Some(Funct) ==> (r.Some? <==> aluOp.Some?)
    ensures aluOp != Some(Funct) && aluOp.Some? ==> r == Some(aluOp.value.fn)
    ensures aluOp == Some(Funct) ==> r == (if funct == 0x20 then Some(Plus) else previous)
  {
    match aluOp
    case Some(Funct) => if funct == 0x20 then Some(Plus) else previous
    case Some(Arith(fn)) => Some(fn)
    case None => None
  }

  /** Re-running ALU control on unchanged inputs changes nothing, so it
      does not matter how often the change-only propagation runs it. */
  lemma AluControlIdempotent(aluOp: Option<AluOp>, funct: int, previous: Option<AluFn>)
    ensures AluControl(aluOp, funct, AluControl(aluOp, funct, previous)) == AluControl(aluOp, funct, previous)
  {
  }

  /** Only an unimplemented R-type function code lets the previous
      operation survive. */
  lemma AluControlKeepsOnlyOnUnknownFunct(aluOp: Option<AluOp>, funct: int, p: Option<AluFn>, q: Option<AluFn>)
    ensures AluControl(aluOp, funct, p) != AluControl(aluOp, funct, q) ==>
              p != q && aluOp == Some(Funct) && funct != 0x20
  {
  }

  /** The producer at a pipeline stage feeds `source`: it writes a
      register, the register is not 0, and it is `source`. */
  predicate Produces(regWrite: Option<int>, rd: Option<int>, source: Option<int>) {
    regWrite == Some(1) && rd != Some(0) && rd == source
  }

  datatype ForwardLines = ForwardLines(forwardA: int, forwardB: int)

  /** `ForwardingUnit#execute`: 2 selects the EX/MEM ALU result, 1 the
      MEM/WB writeback value, 0 the register-file read. */
  function Forwarding(exMemRegWrite: Option<int>, memWbRegWrite: Option<int>,
                      exMemRd: Option<int>, memWbRd: Option<int>,
                      idExRt: Option<int>, idExRs: Option<int>): (r: ForwardLines)
    ensures 0 <= r.forwardA <= 2 && 0 <= r.forwardB <= 2
  {
    var a :=
      if exMemRegWrite == Some(1) && exMemRd != Some(0) && exMemRd == idExRs then 2
      else if memWbRegWrite == Some(1) && memWbRd != Some(0) && memWbRd == idExRs then 1
      else 0;
    var b :=
      if exMemRegWrite == Some(1) && exMemRd != Some(0) && exMemRd == idExRt then 2
      else if memWbRegWrite == Some(1) && memWbRd != Some(0) && memWbRd == idExRt then 1
      else 0;
    ForwardLines(a, b)
  }

  /** The priority rule for one operand source register. */
  function ForwardSelect(exMemRegWrite: Option<int>, memWbRegWrite: Option<int>,
                         exMemRd: Option<int>, memWbRd: Option<int>, source: Option<int>): int {
    if Produces(exMemRegWrite, exMemRd, source) then 2
    else if Produces(memWbRegWrite, memWbRd, source) then 1
    else 0
  }

  /** Each operand follows the same priority rule on its own source
      register: the most recent producer (EX/MEM) wins, then MEM/WB,
      otherwise the register file; `forward_a` depends only on rs and
      `forward_b` only on rt. */
  lemma ForwardingPriority(exMemRegWrite: Option<int>, memWbRegWrite: Option<int>,
                           exMemRd: Option<int>, memWbRd: Option<int>,
                           idExRt: Option<int>, idExRs: Option<int>)
    ensures Forwarding(exMemRegWrite, memWbRegWrite, exMemRd, memWbRd, idExRt, idExRs).forwardA
            == ForwardSelect(exMemRegWrite, memWbRegWrite, exMemRd, memWbRd, idExRs)
    ensures Forwarding(exMemRegWrite, memWbRegWrite, exMemRd, memWbRd, idExRt, idExRs).forwardB
            == ForwardSelect(exMemRegWrite, memWbRegWrite, exMemRd, memWbRd, idExRt)
    ensures ForwardSelect(exMemRegWrite, memWbRegWrite, exMemRd, memWbRd, idExRs) == 2
            <==> Produces(exMemRegWrite, exMemRd, idExRs)
    ensures ForwardSelect(exMemRegWrite, memWbRegWrite, exMemRd, memWbRd, idExRs) == 1
            <==> !Produces(exMemRegWrite, exMemRd, idExRs) && Produces(memWbRegWrite, memWbRd, idExRs)
  {
  }

  /** Register 0 is never forwarded, whatever the later stages write. */
  lemma RegisterZeroNeverForwarded(exMemRegWrite: Option<int>, memWbRegWrite: Option<int>,
                                   exMemRd: Option<int>, memWbRd: Option<int>, other: Option<int>)
    ensures Forwarding(exMemRegWrite, memWbRegWrite, exMemRd, memWbRd, other, Some(0)).forwardA == 0
    ensures Forwarding(exMemRegWrite, memWbRegWrite, exMemRd, memWbRd, Some(0), other).forwardB == 0
  {
  }

  datatype HazardLines = HazardLines(nop: int, pcWrite: int, ifIdWrite: int)

  /** The load-use condition: the instruction in execute loads into a
      register the instruction in decode reads (register 0 included). */
  predicate LoadUse(idExMemRead: Option<int>, idExRt: Option<int>, ifIdRs: Option<int>, ifIdRt: Option<int>) {
    idExMemRead == Some(1) && (idExRt == ifIdRs || idExRt == ifIdRt)
  }

  /** `HazardDetectionUnit#execute`: on a load-use hazard insert a bubble
      and hold both the PC and the IF/ID latch. */
  function HazardDetection(idExMemRead: Option<int>, idExRt: Option<int>,
                           ifIdRs: Option<int>, ifIdRt: Option<int>): (r: HazardLines)
    ensures IsBit(r.nop) && r.pcWrite == 1 - r.nop && r.ifIdWrite == r.pcWrite
    ensures r.nop == 1 <==> LoadUse(idExMemRead, idExRt, ifIdRs, ifIdRt)
  {
    if idExMemRead == Some(1) && (idExRt == ifIdRs || idExRt == ifIdRt) then
      HazardLines(1, 0, 0)
    else
      HazardLines(0, 1, 1)
  }

  /** `System`: the halt and retire lines captured at `tick_prep`, the
      halt flag published at `tick`, and the retired-instruction count,
      nil until the first tick. */
  datatype System = System(nextTerminate: Option<int>, nextReal: Option<int>,
                           terminate: Option<int>, count: Option<nat>)

  const InitialSystem: System := System(None, None, None, None)

  /** `System#tick_prep`. */
  function SystemTickPrep(s: System, terminate: Option<int>, isReal: Option<int>): (r: System)
    ensures r.count == s.count && r.terminate == s.terminate
    ensures r.nextTerminate == terminate && r.nextReal == isReal
  {
    s.(nextTerminate := terminate, nextReal := isReal)
  }

  /** `System#tick`. */
  function SystemTick(s: System): (r: System)
    ensures r.count.Some? && r.count.value >= s.count.GetOr(0)
    ensures r.count.value == s.count.GetOr(0) + 1 <==> s.nextReal == Some(1)
    ensures Terminated(r) <==> s.nextTerminate == Some(1)
  {
    var base := s.count.GetOr(0);
    s.(terminate := s.nextTerminate, count := Some(if s.nextReal == Some(1) then base + 1 else base))
  }

  /** `System#terminate?`. */
  predicate Terminated(s: System) {
    s.terminate == Some(1)
  }

  /** One clock edge of `System`: the count becomes defined and rises by
      exactly one iff the `real` line was 1 at preparation, and the halt
      query reflects the `terminate` line captured then; preparing alone
      changes neither. */
  lemma SystemEdge(s: System, terminate: Option<int>, isReal: Option<int>)
    ensures SystemTickPrep(s, terminate, isReal).count == s.count
    ensures Terminated(SystemTickPrep(s, terminate, isReal)) == Terminated(s)
    ensures SystemTick(SystemTickPrep(s, terminate, isReal)).count.Some?
    ensures SystemTick(SystemTickPrep(s, terminate, isReal)).count.value ==
            s.count.GetOr(0) + (if isReal == Some(1) then 1 else 0)
    ensures Terminated(SystemTick(SystemTickPrep(s, terminate, isReal))) <==> terminate == Some(1)
    ensures InitialSystem.count == None && !Terminated(InitialSystem)
  {
  }
}

=== FILE: datapath.dfy ===
/** The five-stage pipeline that `simulator.rb` wires together, as one
    function from the state at the end of a clock cycle (every register
    output, both memories, and the two component outputs that the
    change-only rule leaves stale) to the state at the end of the next.

    The combinational part of a cycle is evaluated at its fixed point: each
    combinational component shows the function of its current inputs.
    Every latch bank is a set of two-phase registers, so the edge is
    computed from pre-edge values only. */
module Datapath {
  import opened Wrappers
  import opened Bits
  import opened Gates
  import Memory
  import opened Registers
  import opened Cpu

  /** `Register.new(2**12)`: where the program counter starts. */
  const InitialPc: int := 0x1000

  /** The IF/ID latch bank (entries that feed something). */
  datatype IfId = IfId(instr: Option<int>, flushed: Option<int>, started: Option<int>)

  /** The ID/EX latch bank. */
  datatype IdEx = IdEx(
    terminate: Option<int>, regWrite: Option<int>, readData1: Option<int>, readData2: Option<int>,
    regDst: Option<int>, instrRs: Option<int>, instrRt: Option<int>, instrRd: Option<int>,
    memRead: Option<int>, aluSrc: Option<int>, immediate: Option<int>, aluOp: Option<AluOp>,
    memWrite: Option<int>, memToReg: Option<int>, isReal: Option<int>, debugName: Option<Mnemonic>)

  /** The EX/MEM latch bank. */
  datatype ExMem = ExMem(
    terminate: Option<int>, regWrite: Option<int>, writeReg: Option<int>, forwardBData: Option<int>,
    aluResult: Option<int>, memWrite: Option<int>, memToReg: Option<int>, isReal: Option<int>,
    debugName: Option<Mnemonic>)

  /** The MEM/WB latch bank. */
  datatype MemWb = MemWb(
    regWrite: Option<int>, writeReg: Option<int>, aluResult: Option<int>, readData: Option<int>,
    memToReg: Option<int>, isReal: Option<int>, debugName: Option<Mnemonic>)

  datatype State = State(
    pc: Option<int>,
    ifId: IfId, idEx: IdEx, exMem: ExMem, memWb: MemWb,
    regs: seq<Option<int>>,
    imem: seq<Memory.Byte>,
    dmem: seq<Memory.Byte>,
    dmemOut: Option<int>,    // data memory output: re-read only when one of its inputs changes
    aluCtl: Option<AluFn>,   // ALU control output: kept under `:f` with an unknown function code
    system: System)

  /** How a stall bubble is formed.  `AsWritten` forces only the ID/EX
      `reg_write` and `mem_write` entries to 0; `BubbleClearsMemRead` also
      forces `mem_read` to 0, as a bubble must for the stall to end. */
  datatype Variant = AsWritten | BubbleClearsMemRead

  /** The instruction fields the bit slicers cut out of IF/ID `instr`. */
  datatype Fields = Fields(opcode: int, rs: int, rt: int, rd: int, immediate: int, funct: int, target: int)

  /** Field extraction: each field is a digit of the IF/ID word in the
      radix of its width (`Encoding.SplitFollowsSlicers` ties these to
      the bit slicers of the circuit).  Opcode `[31:26]`. */
  function OpcodeOf(instr: Option<int>): (r: int)
    ensures 0 <= r < 64
  {
    (ToI(instr) / 0x400_0000) % 64
  }

  /** rs `[25:21]`. */
  function RsOf(instr: Option<int>): (r: int)
    ensures 0 <= r < 32
  {
    (ToI(instr) / 0x20_0000) % 32
  }

  /** rt `[20:16]`. */
  function RtOf(instr: Option<int>): (r: int)
    ensures 0 <= r < 32
  {
    (ToI(instr) / 0x1_0000) % 32
  }

  /** rd `[15:11]`. */
  function RdOf(instr: Option<int>): (r: int)
    ensures 0 <= r < 32
  {
    (ToI(instr) / 0x800) % 32
  }

  /** The immediate `[15:0]`, read as a signed 16-bit value. */
  function ImmediateOf(instr: Option<int>): (r: int)
    ensures -32768 <= r < 32768
  {
    var u := ToI(instr) % 0x1_0000;
    if u >= 0x8000 then u - 0x1_0000 else u
  }

  /** The function code `[5:0]`. */
  function FunctOf(instr: Option<int>): (r: int)
    ensures 0 <= r < 64
  {
    ToI(instr) % 64
  }

  /** The jump field `[25:0]`. */
  function TargetOf(instr: Option<int>): (r: int)
    ensures 0 <= r < 0x400_0000
  {
    ToI(instr) % 0x400_0000
  }

  /** All the fields the decode stage cuts out of one word. */
  function Split(instr: Option<int>): Fields {
    Fields(OpcodeOf(instr), RsOf(instr), RtOf(instr), RdOf(instr),
           ImmediateOf(instr), FunctOf(instr), TargetOf(instr))
  }

  /** `mem_to_reg_mux`: the MEM/WB memory data or ALU result. */
  function Writeback(w: MemWb): Option<int> {
    MuxSelect([w.aluResult, w.readData], w.memToReg)
  }

  /** The next PC: `pc_write_mux` over the current PC and `jump_mux`, which
      chooses the jump target over `branch_mux`, which chooses the branch
      target over PC+4.  Both targets come from the current PC register. */
  function SelectPc(pc: Option<int>, f: Fields, c: ControlLines, taken: int, pcWrite: int): Option<int> {
    var pcPlus4 := Adder(pc, Some(4));
    var branchTarget := Adder(pc, Some(ShiftLeft(Some(f.immediate), 2)));
    var branchMux := MuxSelect([Some(pcPlus4), Some(branchTarget)], Some(taken));
    var jumpMux := MuxSelect([branchMux, Some(ShiftLeft(Some(f.target), 2))], Some(c.jump));
    MuxSelect([pc, jumpMux], Some(pcWrite))
  }

  /** What IF/ID `instr` takes next: `instr_write_mux` recirculates the
      latched word when IF/ID may not be written, and `flush_mux` replaces
      the result by 0 on a taken branch or a jump. */
  function SelectInstr(latched: Option<int>, fetched: Option<int>, ifIdWrite: int, branchOrJump: int): Option<int> {
    MuxSelect([MuxSelect([latched, fetched], Some(ifIdWrite)), Some(0)], Some(branchOrJump))
  }

  /** Every combinational value of a cycle, at its fixed point. */
  datatype Signals = Signals(
    fields: Fields, control: ControlLines, hazard: HazardLines,
    writeback: Option<int>, staged: seq<Option<int>>,
    readData1: Option<int>, readData2: Option<int>,
    taken: int, branchOrJump: int, nextPc: Option<int>, nextInstr: Option<int>,
    regWriteOrNop: Option<int>, memWriteOrNop: Option<int>, isReal: int,
    forward: ForwardLines, forwardA: Option<int>, forwardB: Option<int>,
    alu: AluOut, writeReg: Option<int>)

  /** The two evaluations of a cycle that can raise: the register bank's
      write half and the instruction fetch at the PC. */
  datatype Raising = Raising(staged: seq<Option<int>>, fetched: Option<int>)

  function Fallible(s: State): (r: Result<Raising>)
    ensures r.Err? <==>
              || (s.memWb.regWrite == Some(1) && !(-|s.regs| <= ToI(s.memWb.writeReg) < |s.regs|))
              || ToI(s.pc) > |s.imem| || ToI(s.pc) < -|s.imem|
  {
    var staged :- Stage(s.regs, s.memWb.writeReg, Writeback(s.memWb), s.memWb.regWrite);
    var fetched :- Memory.Read(s.imem, ToI(s.pc));
    Ok(Raising(staged, fetched))
  }

  /** The fixed point of the wiring for the register outputs in `s`.  It
      fails exactly where `Fallible` does. */
  function Comb(s: State): (r: Result<Signals>)
    ensures r.Ok? <==> Fallible(s).Ok?
    ensures r.Ok? ==> r.value.staged == Fallible(s).value.staged
  {
    var f := Split(s.ifId.instr);
    var c := Decode(f.opcode);
    var hz := HazardDetection(s.idEx.memRead, s.idEx.instrRt, Some(f.rs), Some(f.rt));
    // decode: register bank with same-cycle bypass from writeback (its
    // extra mux slot is selected by no 5-bit index and is left empty)
    var wb := Writeback(s.memWb);
    var raised :- Fallible(s);
    var staged := raised.staged;
    var rd1 := ReadPort(s.regs, None, Some(f.rs), s.memWb.writeReg, wb, s.memWb.regWrite);
    var rd2 := ReadPort(s.regs, None, Some(f.rt), s.memWb.writeReg, wb, s.memWb.regWrite);
    // branch and jump resolution in decode, on un-forwarded reads
    var taken := AndGate(Some(c.branch), Some(EqualityTest(rd1, rd2)));
    var branchOrJump := OrGate(Some(c.jump), Some(taken));
    var nextPc := SelectPc(s.pc, f, c, taken, hz.pcWrite);
    // fetch
    var nextInstr := SelectInstr(s.ifId.instr, raised.fetched, hz.ifIdWrite, branchOrJump);
    // bubble insertion and retire accounting
    var regWriteOrNop := MuxSelect([Some(c.regWrite), Some(0)], Some(hz.nop));
    var memWriteOrNop := MuxSelect([Some(c.memWrite), Some(0)], Some(hz.nop));
    var isNop := OrGate(Some(hz.nop), s.ifId.flushed);
    var isReal := AndGate(Some(NotGate(Some(isNop))), s.ifId.started);
    // execute
    var fw := Forwarding(s.exMem.regWrite, s.memWb.regWrite, s.exMem.writeReg, s.memWb.writeReg,
                         s.idEx.instrRt, s.idEx.instrRs);
    var fa := MuxSelect([s.idEx.readData1, wb, s.exMem.aluResult], Some(fw.forwardA));
    var fb := MuxSelect([s.idEx.readData2, wb, s.exMem.aluResult], Some(fw.forwardB));
    var aluIn2 := MuxSelect([fb, s.idEx.immediate], s.idEx.aluSrc);
    var alu := Alu(fa, aluIn2, s.aluCtl);
    var writeReg := MuxSelect([s.idEx.instrRt, s.idEx.instrRd], s.idEx.regDst);
    Ok(Signals(f, c, hz, wb, staged, rd1, rd2, taken, branchOrJump, nextPc, nextInstr,
               regWriteOrNop, memWriteOrNop, isReal, fw, fa, fb, alu, writeReg))
  }

  /** The ID/EX entries latched at the edge. */
  function NextIdEx(v: Variant, g: Signals): IdEx {
    var c := g.control;
    var memRead := if v == BubbleClearsMemRead && g.hazard.nop == 1 then 0 else c.memRead;
    IdEx(
      terminate := Some(c.terminate), regWrite := g.regWriteOrNop,
      readData1 := g.readData1, readData2 := g.readData2,
      regDst := Some(c.regDst), instrRs := Some(g.fields.rs), instrRt := Some(g.fields.rt),
      instrRd := Some(g.fields.rd), memRead := Some(memRead), aluSrc := Some(c.aluSrc),
      immediate := Some(g.fields.immediate), aluOp := Some(c.aluOp), memWrite := g.memWriteOrNop,
      memToReg := Some(c.memToReg), isReal := Some(g.isReal), debugName := c.debugName)
  }

  /** The EX/MEM entries latched at the edge: the same-named ID/EX entries
      move on, the rest come from the execute stage. */
  function NextExMem(d: IdEx, g: Signals): ExMem {
    ExMem(
      terminate := d.terminate, regWrite := d.regWrite, writeReg := g.writeReg,
      forwardBData := g.forwardB, aluResult := Some(g.alu.result), memWrite := d.memWrite,
      memToReg := d.memToReg, isReal := d.isReal, debugName := d.debugName)
  }

  /** The MEM/WB entries latched at the edge. */
  function NextMemWb(e: ExMem, dmemOut: Option<int>): MemWb {
    MemWb(
      regWrite := e.regWrite, writeReg := e.writeReg, aluResult := e.aluResult,
      readData := dmemOut, memToReg := e.memToReg, isReal := e.isReal, debugName := e.debugName)
  }

  /** ALU control after the edge.  IF/ID ticks before ID/EX, so the new
      function code reaches it while `alu_op` is still the old one; each
      input re-runs it only if that input changed. */
  function NextAluCtl(oldOp: Option<AluOp>, newOp: Option<AluOp>, oldFunct: int, newFunct: int,
                      previous: Option<AluFn>): (r: Option<AluFn>)
    ensures newOp == oldOp && newFunct == oldFunct ==> r == previous
    ensures (newOp != oldOp || newFunct != oldFunct) && newOp.Some? && newOp != Some(Funct) ==>
              r == Some(newOp.value.fn)
    ensures newOp != oldOp && newOp == None ==> r == None
  {
    var afterFunct := if newFunct != oldFunct then AluControl(oldOp, newFunct, previous) else previous;
    if newOp != oldOp then AluControl(newOp, newFunct, afterFunct) else afterFunct
  }

  /** Whether the edge changed any of the data memory's three inputs
      (address, write data, `mem_write`), which re-runs its `execute`. */
  predicate DmemInputsChanged(before: ExMem, after: ExMem) {
    (after.aluResult, after.forwardBData, after.memWrite) != (before.aluResult, before.forwardBData, before.memWrite)
  }

  /** Data memory output after the edge: re-read from the written memory
      when one of its three inputs changed, else left as it was. */
  function NextDmemOut(before: ExMem, after: ExMem, dmem: seq<Memory.Byte>, previous: Option<int>): (r: Result<Option<int>>)
    ensures !DmemInputsChanged(before, after) ==> r == Ok(previous)
    ensures r.Err? <==> DmemInputsChanged(before, after) &&
                        (ToI(after.aluResult) > |dmem| || ToI(after.aluResult) < -|dmem|)
    ensures DmemInputsChanged(before, after) && 0 <= ToI(after.aluResult) && ToI(after.aluResult) + 4 <= |dmem| ==>
              r == Ok(Some(Memory.LoadWord(dmem[ToI(after.aluResult)..ToI(after.aluResult) + 4])))
  {
    if DmemInputsChanged(before, after) then
      Memory.Read(dmem, ToI(after.aluResult))
    else
      Ok(previous)
  }

  /** The clock edge itself, given the cycle's signals `g`: every latch
      takes its input, the data memory commits its pending write, and the
      two stale component outputs are brought up to date. */
  function Advance(v: Variant, s: State, g: Signals): (r: Result<State>)
    ensures r.Ok? ==> r.value.imem == s.imem && |r.value.dmem| >= |s.dmem|
    ensures r.Ok? ==> r.value.memWb.readData == s.dmemOut && r.value.ifId.started == Some(1)
    ensures r.Ok? ==> r.value.system.count.GetOr(0) <= s.system.count.GetOr(0) + 1
  {
    var dmem :- Memory.Tick(s.dmem, s.exMem.aluResult, s.exMem.forwardBData, s.exMem.memWrite);
    var ifId := IfId(g.nextInstr, Some(g.branchOrJump), Some(1));
    var idEx := NextIdEx(v, g);
    var exMem := NextExMem(s.idEx, g);
    var memWb := NextMemWb(s.exMem, s.dmemOut);
    var system := SystemTick(SystemTickPrep(s.system, s.exMem.terminate, s.memWb.isReal));
    var dmemOut :- NextDmemOut(s.exMem, exMem, dmem, s.dmemOut);
    var aluCtl := NextAluCtl(s.idEx.aluOp, idEx.aluOp, g.fields.funct, FunctOf(ifId.instr), s.aluCtl);
    Ok(State(g.nextPc, ifId, idEx, exMem, memWb, g.staged, s.imem, dmem, dmemOut, aluCtl, system))
  }

  /** One clock cycle: the signals settle, the clock ticks (`Clock#tick`),
      and the propagation the edge causes runs.  Fails where the Ruby
      program would raise. */
  function Step(v: Variant, s: State): (r: Result<State>)
    ensures r.Ok? ==> r.value.imem == s.imem && |r.value.dmem| >= |s.dmem|
    ensures r.Ok? ==> r.value.system.count.GetOr(0) <= s.system.count.GetOr(0) + 1
    ensures r.Ok? ==> Fallible(s).Ok? && Fallible(r.value).Ok?
  {
    var g :- Comb(s);
    var next :- Advance(v, s, g);
    var _ :- Fallible(next);
    Ok(next)
  }

  const EmptyIdEx: IdEx :=
    IdEx(None, None, None, None, None, None, None, None, None, None, None, None, None, None, None, None)

  /** The circuit right after `CircuitComponent.start_all`: every latch and
      register nil, the PC at 4096, data memory a copy of the image. */
  function Initial(image: seq<Memory.Byte>): (r: Result<State>)
    ensures r.Ok? <==> |image| >= InitialPc
    ensures r.Ok? ==> r.value.imem == image && r.value.dmem == image && r.value.system == InitialSystem
  {
    // the data memory's address is still nil, read as 0: never out of range
    var dmemOut := Memory.Read(image, 0).value;
    var s := State(
      Some(InitialPc), IfId(None, None, None), EmptyIdEx,
      ExMem(None, None, None, None, None, None, None, None, None),
      MemWb(None, None, None, None, None, None, None),
      seq(RegisterCount, _ => None), image, image, dmemOut, None, InitialSystem);
    var _ :- Fallible(s);
    Ok(s)
  }

  /** How a run ended: the final state, the cycle counter, and whether it
      ended on the halt line (rather than on the cycle limit). */
  datatype Outcome = Outcome(state: State, cycles: nat, halted: bool)

  /** The driver loop around any per-cycle step: count the cycle, stop if
      the halt line has been latched, otherwise tick.  `limit` is the
      `--terminate` cycle cap. */
  function Loop(step: State -> Result<State>, s: State, cycles: nat, limit: nat): (r: Result<Outcome>)
    ensures r.Ok? && r.value.halted ==> Terminated(r.value.state.system) && r.value.cycles <= limit
    ensures r.Ok? && !r.value.halted ==> r.value.cycles == (if cycles >= limit then cycles else limit)
    decreases limit - cycles
  {
    if cycles >= limit then Ok(Outcome(s, cycles, false))
    else if Terminated(s.system) then Ok(Outcome(s, cycles + 1, true))
    else
      var next :- step(s);
      Loop(step, next, cycles + 1, limit)
  }

  /** The simulator's run: the driver loop around the pipeline's edge. */
  function Run(v: Variant, s: State, cycles: nat, limit: nat): (r: Result<Outcome>)
    ensures r.Ok? && r.value.halted ==> Terminated(r.value.state.system) && r.value.cycles <= limit
    ensures r.Ok? && !r.value.halted ==> r.value.cycles == (if cycles >= limit then cycles else limit)
  {
    Loop(t => Step(v, t), s, cycles, limit)
  }
}

=== FILE: encoding.dfy ===
/** The instruction word format the decode stage slices: encoding a field
    tuple into a 32-bit word and slicing it again gives the fields back. */
module Encoding {
  import opened Wrappers
  import opened Bits
  import opened Gates
  import opened Datapath

  lemma {:induction false} Pow2Add(a: nat, b: nat)
    ensures Pow2(a + b) == Pow2(a) * Pow2(b)
    decreases a
  {
    if a > 0 {
      Pow2Add(a - 1, b);
    }
  }

  lemma Pow2Table()
    ensures Pow2(5) == 32 && Pow2(6) == 64 && Pow2(11) == 2048 && Pow2(16) == 65536
    ensures Pow2(21) == 2097152 && Pow2(26) == 67108864
  {
    assert Pow2(5) == 32;
    assert Pow2(6) == 64;
    Pow2Add(5, 6);
    Pow2Add(5, 11);
    Pow2Add(5, 16);
    Pow2Add(5, 21);
  }

  /** The decode stage's field split is the bit slicers of the circuit:
      each field is `BitSlicer.new(from, to)` applied to the IF/ID word. */
  lemma SplitFollowsSlicers(instr: Option<int>)
    ensures var f := Split(instr);
            && f.opcode == Slice(instr, 31, 26) && f.rs == Slice(instr, 25, 21)
            && f.rt == Slice(instr, 20, 16) && f.rd == Slice(instr, 15, 11)
            && f.immediate == SignExtend16(Some(Slice(instr, 15, 0)))
            && f.funct == Slice(instr, 5, 0) && f.target == Slice(instr, 25, 0)
  {
    Pow2Table();
  }

  /** The digit `d` of `x` in a mixed radix `pl`, `pw`. */
  lemma FieldDivMod(x: int, hi: int, d: int, lo: int, pl: int, pw: int)
    requires pl > 0 && 0 <= d < pw && 0 <= lo < pl
    requires x == (hi * pw + d) * pl + lo
    ensures (x / pl) % pw == d
  {
    var q := hi * pw + d;
    assert x == pl * q + lo;
    ModUnique(x, pl, q, lo);
    assert q == pw * hi + d;
    ModUnique(q, pw, hi, d);
  }

  /** An I-type word (ADDI, BEQ, LW, SW): opcode, rs, rt, 16-bit immediate. */
  function EncodeI(opcode: int, rs: int, rt: int, imm: int): int
    requires 0 <= opcode < 64 && 0 <= rs < 32 && 0 <= rt < 32 && -32768 <= imm < 32768
  {
    opcode * 67108864 + rs * 2097152 + rt * 65536 + imm % 65536
  }

  /** An R-type word (opcode 0, shift amount 0). */
  function EncodeR(rs: int, rt: int, rd: int, funct: int): int
    requires 0 <= rs < 32 && 0 <= rt < 32 && 0 <= rd < 32 && 0 <= funct < 64
  {
    rs * 2097152 + rt * 65536 + rd * 2048 + funct
  }

  /** A J-type word: opcode and 26-bit target field. */
  function EncodeJ(opcode: int, target: int): int
    requires 0 <= opcode < 64 && 0 <= target < 67108864
  {
    opcode * 67108864 + target
  }

  lemma SignExtendRoundTrip(imm: int)
    requires -32768 <= imm < 32768
    ensures SignExtend16(Some(imm % 65536)) == imm
  {
    if imm < 0 {
      ModUnique(imm, 65536, -1, imm + 65536);
    } else {
      ModUnique(imm, 65536, 0, imm);
    }
  }

  lemma {:induction false} SplitEncodeI(opcode: int, rs: int, rt: int, imm: int)
    requires 0 <= opcode < 64 && 0 <= rs < 32 && 0 <= rt < 32 && -32768 <= imm < 32768
    ensures Split(Some(EncodeI(opcode, rs, rt, imm))).opcode == opcode
    ensures Split(Some(EncodeI(opcode, rs, rt, imm))).rs == rs
    ensures Split(Some(EncodeI(opcode, rs, rt, imm))).rt == rt
    ensures Split(Some(EncodeI(opcode, rs, rt, imm))).immediate == imm
  {
    var u := imm % 65536;
    var x := EncodeI(opcode, rs, rt, imm);
    FieldDivMod(x, 0, opcode, rs * 2097152 + rt * 65536 + u, 67108864, 64);
    FieldDivMod(x, opcode, rs, rt * 65536 + u, 2097152, 32);
    FieldDivMod(x, opcode * 32 + rs, rt, u, 65536, 32);
    FieldDivMod(x, opcode * 1024 + rs * 32 + rt, u, 0, 1, 65536);
    SignExtendRoundTrip(imm);
  }

  lemma {:induction false} SplitEncodeR(rs: int, rt: int, rd: int, funct: int)
    requires 0 <= rs < 32 && 0 <= rt < 32 && 0 <= rd < 32 && 0 <= funct < 64
    ensures Split(Some(EncodeR(rs, rt, rd, funct))).opcode == 0
    ensures Split(Some(EncodeR(rs, rt, rd, funct))).rs == rs
    ensures Split(Some(EncodeR(rs, rt, rd, funct))).rt == rt
    ensures Split(Some(EncodeR(rs, rt, rd, funct))).rd == rd
    ensures Split(Some(EncodeR(rs, rt, rd, funct))).funct == funct
  {
    var x := EncodeR(rs, rt, rd, funct);
    FieldDivMod(x, 0, 0, rs * 2097152 + rt * 65536 + rd * 2048 + funct, 67108864, 64);
    FieldDivMod(x, 0, rs, rt * 65536 + rd * 2048 + funct, 2097152, 32);
    FieldDivMod(x, rs, rt, rd * 2048 + funct, 65536, 32);
    FieldDivMod(x, rs * 32 + rt, rd, funct, 2048, 32);
    FieldDivMod(x, rs * 32768 + rt * 1024 + rd * 32, funct, 0, 1, 64);
  }

  lemma {:induction false} SplitEncodeJ(opcode: int, target: int)
    requires 0 <= opcode < 64 && 0 <= target < 67108864
    ensures Split(Some(EncodeJ(opcode, target))).opcode == opcode
    ensures Split(Some(EncodeJ(opcode, target))).target == target
  {
    var x := EncodeJ(opcode, target);
    FieldDivMod(x, 0, opcode, target, 67108864, 64);
    FieldDivMod(x, opcode, target, 0, 1, 67108864);
  }
}

=== FILE: gates.dfy ===
/** The generic combinational components of `std_components.rb`, each as a
    total function of the values currently on its input slots.  An input
    that was never driven holds `None` (Ruby `nil`); most components read
    their inputs with `to_i`, which turns `nil` into 0. */
module Gates {
  import opened Wrappers
  import opened Bits

  /** Ruby `x.to_i` on an integer-or-nil wire value. */
  function ToI(x: Option<int>): int {
    x.GetOr(0)
  }

  /** `Adder#execute`: an undriven input adds nothing. */
  function Adder(in1: Option<int>, in2: Option<int>): (r: int)
    ensures r - ToI(in2) == ToI(in1)
    ensures in2 == None ==> r == ToI(in1)
  {
    ToI(in1) + ToI(in2)
  }

  /** `Extender16to32#execute`: pack as an unsigned 16-bit short (keeping
      the low 16 bits), unpack as a signed one. */
  function SignExtend16(number: Option<int>): (r: int)
    ensures -32768 <= r <= 32767
    ensures r % 65536 == ToI(number) % 65536
    ensures 0 <= ToI(number) < 32768 ==> r == ToI(number)
  {
    var u := ToI(number) % 65536;
    if u >= 32768 then u - 65536 else u
  }

  /** `BitSlicer.new(from, to)#execute`: bits `from` down to `to`, as the
      digit of the input in base `2^(from-to+1)` after dropping `to` bits. */
  function Slice(number: Option<int>, from: nat, to: nat): (r: int)
    requires to <= from
    ensures 0 <= r < Pow2(from - to + 1)
  {
    (ToI(number) / Pow2(to)) % Pow2(from - to + 1)
  }

  /** The slice is exactly the Ruby expression `(n >> to) & (2**w - 1)`
      with `w = from - to + 1`, negative inputs included. */
  lemma SliceIsMask(number: Option<int>, from: nat, to: nat)
    requires to <= from
    ensures Slice(number, from, to) == BitAnd(ShiftRight(ToI(number), to), Pow2(from - to + 1) - 1)
  {
    MaskIsMod(ShiftRight(ToI(number), to), from - to + 1);
  }

  /** `LeftShifter.new(amount)#execute`: Ruby `<<` on an unbounded integer;
      the low `amount` bits come out zero and the sign is kept. */
  function ShiftLeft(number: Option<int>, amount: nat): (r: int)
    ensures r % Pow2(amount) == 0
    ensures r < 0 <==> ToI(number) < 0
  {
    var p := Pow2(amount);
    ModUnique(ToI(number) * p, p, ToI(number), 0);
    ToI(number) * p
  }

  /** Shifting left then right by the same amount gives the number back:
      no bit is lost, because integers are unbounded. */
  lemma ShiftLeftLosesNothing(number: Option<int>, amount: nat)
    ensures ShiftRight(ShiftLeft(number, amount), amount) == ToI(number)
  {
    var p := Pow2(amount);
    ModUnique(ToI(number) * p, p, ToI(number), 0);
    assert ToI(number) * p == p * ToI(number) + 0;
  }

  /** `AndGate#execute`: an undriven or zero input forces 0. */
  function AndGate(in1: Option<int>, in2: Option<int>): (r: int)
    ensures ToI(in1) == 0 || ToI(in2) == 0 ==> r == 0
  {
    var a, b := ToI(in1), ToI(in2);
    AndZero(a);
    AndZero(b);
    BitOpsCommute(a, b);
    BitOpsCommute(0, b);
    BitAnd(a, b)
  }

  /** `OrGate#execute`: an undriven or zero input lets the other through. */
  function OrGate(in1: Option<int>, in2: Option<int>): (r: int)
    ensures ToI(in2) == 0 ==> r == ToI(in1)
    ensures ToI(in1) == 0 ==> r == ToI(in2)
  {
    var a, b := ToI(in1), ToI(in2);
    OrZero(a);
    OrZero(b);
    BitOpsCommute(a, b);
    BitOpsCommute(0, b);
    BitOr(a, b)
  }

  /** `NotGate#execute`: anything other than 1 (nil included) reads as 0. */
  function NotGate(input: Option<int>): (r: int)
    ensures r == 0 || r == 1
    ensures r == 0 <==> input == Some(1)
  {
    if input == Some(1) then 0 else 1
  }

  /** `EqualityTest#execute`: compares the raw values, so nil equals nil. */
  function EqualityTest(in1: Option<int>, in2: Option<int>): (r: int)
    ensures r == 0 || r == 1
    ensures r == 1 <==> in1 == in2
  {
    if in1 == in2 then 1 else 0
  }

  /** The gates on one-bit wires behave as boolean connectives; an
      undriven wire counts as 0. */
  lemma GatesOnBits(in1: Option<int>, in2: Option<int>)
    requires ToI(in1) == 0 || ToI(in1) == 1
    requires ToI(in2) == 0 || ToI(in2) == 1
    ensures AndGate(in1, in2) == 1 <==> (in1 == Some(1) && in2 == Some(1))
    ensures AndGate(in1, in2) == 0 || AndGate(in1, in2) == 1
    ensures OrGate(in1, in2) == 1 <==> (in1 == Some(1) || in2 == Some(1))
    ensures OrGate(in1, in2) == 0 || OrGate(in1, in2) == 1
  {
    BitOpsOnBits(ToI(in1), ToI(in2));
  }

  /** Ruby `Array#[]` with one integer index on an array of length `n`:
      negative indices count from the end; anything else out of range
      yields nil. */
  function RubyIndex(n: nat, i: int): (r: Option<nat>)
    ensures r.Some? <==> -(n as int) <= i < n
    ensures r.Some? ==> r.value < n
    ensures 0 <= i < n ==> r == Some(i)
    ensures -(n as int) <= i < 0 ==> r == Some(n + i)
  {
    if 0 <= i < n then Some(i)
    else if -(n as int) <= i < 0 then Some(n + i)
    else None
  }

  /** `Mux#execute`: the value on the input slot the selector names. */
  function MuxSelect<V>(ins: seq<Option<V>>, selector: Option<int>): (r: Option<V>)
    ensures 0 <= ToI(selector) < |ins| ==> r == ins[ToI(selector)]
    ensures selector == None && |ins| > 0 ==> r == ins[0]
    ensures ToI(selector) >= |ins| ==> r == None
    ensures -|ins| <= ToI(selector) < 0 ==> r == ins[ToI(selector) + |ins|]
    ensures ToI(selector) < -|ins| ==> r == None
  {
    match RubyIndex(|ins|, ToI(selector))
    case Some(k) => ins[k]
    case None => None
  }

  /** The operation an `ALU` applies: the Ruby method symbol it sends. */
  datatype AluFn = Plus | Minus

  datatype AluOut = AluOut(result: int, zero: int)

  /** `ALU#execute`: `in1.to_i.send(control || :+, in2.to_i)` on unbounded
      integers, with the zero flag. */
  function Alu(in1: Option<int>, in2: Option<int>, control: Option<AluFn>): (r: AluOut)
    ensures r.zero == 0 || r.zero == 1
    ensures r.zero == 1 <==> r.result == 0
    ensures control == Some(Minus) ==> (r.zero == 1 <==> ToI(in1) == ToI(in2))
    ensures control != Some(Minus) ==> r.result - ToI(in2) == ToI(in1)
    ensures control == Some(Minus) ==> r.result + ToI(in2) == ToI(in1)
  {
    var result := if control == Some(Minus) then ToI(in1) - ToI(in2) else ToI(in1) + ToI(in2);
    AluOut(result, if result == 0 then 1 else 0)
  }
}

=== FILE: hdl.dfy ===
/** The signal-propagation rules of `hdl.rb`: an `Output` remembers the
    value it last carried and the set of inputs wired to it; setting it
    to a different value delivers the value to every bound input, and
    setting it to the same value does nothing.  Delivering to an input
    slot stores the value under the slot's name and re-executes the
    owning component; delivering to the relay that `>>` puts between two
    outputs sets the second output. */
module Hdl {
  import opened Wrappers

  /** An input bound to an output: a named slot of a component, or a
      relay input that `>>` creates to forward into another output.  Slot
      inputs are cached per component and name, so a slot is its owner and
      name; every relay is a new object, told apart by its `serial`. */
  datatype InputRef = Slot(owner: nat, name: string) | Relay(serial: nat, target: nat)

  /** An `Output`: `@existing_value` and the `Set` of bound inputs. */
  datatype Output<V> = Output(held: Option<V>, bound: set<InputRef>)

  /** `Output.new`: holds nil, wired to nothing. */
  function NewOutput<V>(): Output<V> {
    Output(None, {})
  }

  /** The output after a `set`, and the inputs that were invoked with
      the new value (each at most once, as they come from a set). */
  datatype SetEffect<V> = SetEffect(out: Output<V>, notified: set<InputRef>)

  /** `Output#set`. */
  function Set<V(==)>(o: Output<V>, v: Option<V>): (r: SetEffect<V>)
    ensures r.out.held == v && r.out.bound == o.bound
    ensures r.notified <= o.bound
    ensures r.notified != {} ==> v != o.held
    ensures v != o.held ==> r.notified == o.bound
  {
    if v != o.held then SetEffect(o.(held := v), o.bound) else SetEffect(o, {})
  }

  /** The change-only rule: afterwards the output holds `v` and keeps its
      wiring; every bound input is notified iff `v` differs from the value
      held before, and otherwise nothing at all happens. */
  lemma SetChangeOnly<V>(o: Output<V>, v: Option<V>)
    ensures Set(o, v).out == Output(v, o.bound)
    ensures v != o.held ==> Set(o, v).notified == o.bound
    ensures v == o.held ==> Set(o, v) == SetEffect(o, {})
  {
  }

  /** `set` is idempotent: repeating it notifies nobody and changes nothing. */
  lemma SetIdempotent<V>(o: Output<V>, v: Option<V>)
    ensures Set(Set(o, v).out, v) == SetEffect(Set(o, v).out, {})
  {
  }

  /** A fresh output already holds nil, so setting it to nil notifies
      none of the inputs wired to it. */
  lemma FreshNilIsSilent<V>(bound: set<InputRef>)
    ensures Set(Output(NewOutput<V>().held, bound), None).notified == {}
  {
  }

  /** The right-hand side of `>>`: another output, a component (wired to
      its default input) or an input. */
  datatype Destination = ToOutput(id: nat) | ToComponent(id: nat, defaultInput: string) | ToInput(input: InputRef)

  /** The input `>>` binds for `d`; `serial` names the relay object
      created when `d` is an output. */
  function InputFor(d: Destination, serial: nat): InputRef {
    match d
    case ToOutput(id) => Relay(serial, id)
    case ToComponent(id, name) => Slot(id, name)
    case ToInput(i) => i
  }

  /** No relay bound to `o` already carries `serial`: the relay object
      `Input.new` makes is a fresh object. */
  predicate FreshRelay<V>(o: Output<V>, serial: nat) {
    forall i :: i in o.bound && i.Relay? ==> i.serial != serial
  }

  datatype WireResult<V> = WireResult(out: Output<V>, returned: Destination)

  /** `Output#>>`: bind the input for `d` and return `d` for chaining.
      Wiring to an output always binds one more input, a new relay. */
  function Wire<V>(o: Output<V>, d: Destination, serial: nat): (r: WireResult<V>)
    requires d.ToOutput? ==> FreshRelay(o, serial)
    ensures r.returned == d
    ensures r.out.held == o.held
    ensures forall i :: i in r.out.bound <==> i in o.bound || i == InputFor(d, serial)
    ensures d.ToOutput? ==> InputFor(d, serial) !in o.bound && |r.out.bound| == |o.bound| + 1
    ensures !d.ToOutput? ==> (|r.out.bound| == |o.bound| <==> InputFor(d, serial) in o.bound)
  {
    var i := InputFor(d, serial);
    assert i in o.bound ==> o.bound + {i} == o.bound;
    WireResult(o.(bound := o.bound + {i}), d)
  }

  /** Wiring the same component or input twice is the same as wiring it
      once, so a change still reaches that input exactly once. */
  lemma WireTwiceIsOnce<V>(o: Output<V>, d: Destination, v: Option<V>)
    requires !d.ToOutput?
    ensures Wire(Wire(o, d, 0).out, d, 0).out == Wire(o, d, 0).out
    ensures v != o.held ==> Set(Wire(Wire(o, d, 0).out, d, 0).out, v).notified == o.bound + {InputFor(d, 0)}
  {
  }

  /** Wiring an output twice to the same output binds two relays, and a
      change invokes both, so the target receives `set` twice. */
  lemma WireOutputTwiceRelaysTwice<V>(o: Output<V>, t: nat, first: nat, second: nat, v: Option<V>)
    requires FreshRelay(o, first) && FreshRelay(o, second) && first != second
    ensures var w := Wire(Wire(o, ToOutput(t), first).out, ToOutput(t), second).out;
            && |w.bound| == |o.bound| + 2
            && (v != o.held ==> Set(w, v).notified == o.bound + {Relay(first, t), Relay(second, t)})
  {
    var w1 := Wire(o, ToOutput(t), first).out;
    assert FreshRelay(w1, second);
  }

  /** The outputs of a circuit and the values on its components' input
      slots (`@input_vals`), by identity. */
  datatype Network<V> = Network(outputs: map<nat, Output<V>>, values: map<nat, map<string, Option<V>>>)

  /** What one delivery did: the circuit afterwards, the components whose
      `execute` ran, and the inputs the delivery notified in turn. */
  datatype Delivery<V> = Delivery(net: Network<V>, executed: set<nat>, pending: set<InputRef>)

  /** Invoking one bound input with value `v`.  A slot stores `v` under its
      name and runs its owner's `execute`; a relay calls `set` on its
      target output, whose own bound inputs become pending. */
  function Deliver<V(==)>(net: Network<V>, i: InputRef, v: Option<V>): (r: Delivery<V>)
    requires i.Relay? ==> i.target in net.outputs
    ensures r.net.outputs.Keys == net.outputs.Keys
    ensures i.Slot? ==> r.executed == {i.owner} && r.pending == {} && r.net.outputs == net.outputs
    ensures i.Slot? ==> r.net.values.Keys == net.values.Keys + {i.owner}
    ensures i.Slot? ==> forall c :: c in net.values && c != i.owner ==> r.net.values[c] == net.values[c]
    ensures i.Relay? ==> r.executed == {} && r.net.values == net.values &&
                         r.pending <= net.outputs[i.target].bound &&
                         r.net.outputs[i.target].held == v &&
                         r.net.outputs[i.target].bound == net.outputs[i.target].bound
    ensures i.Relay? ==> forall t :: t in net.outputs && t != i.target ==> r.net.outputs[t] == net.outputs[t]
  {
    match i
    case Slot(c, name) =>
      var vals := if c in net.values then net.values[c] else map[];
      Delivery(net.(values := net.values[c := vals[name := v]]), {c}, {})
    case Relay(_, t) =>
      var e := Set(net.outputs[t], v);
      Delivery(net.(outputs := net.outputs[t := e.out]), {}, e.notified)
  }

  /** A slot delivery records the value under that slot's name, leaves the
      component's other slots, every other component's slots and every
      output alone, and runs exactly the owner's `execute`. */
  lemma SlotDeliveryStoresThenExecutes<V>(net: Network<V>, c: nat, name: string, v: Option<V>)
    ensures Deliver(net, Slot(c, name), v).executed == {c}
    ensures Deliver(net, Slot(c, name), v).pending == {}
    ensures Deliver(net, Slot(c, name), v).net.values[c][name] == v
    ensures Deliver(net, Slot(c, name), v).net.outputs == net.outputs
    ensures forall n :: c in net.values && n in net.values[c] && n != name ==>
              n in Deliver(net, Slot(c, name), v).net.values[c] &&
              Deliver(net, Slot(c, name), v).net.values[c][n] == net.values[c][n]
    ensures forall c2 :: c2 in net.values && c2 != c ==>
              c2 in Deliver(net, Slot(c, name), v).net.values &&
              Deliver(net, Slot(c, name), v).net.values[c2] == net.values[c2]
  {
  }

  /** Output-to-output wiring forwards by `set`: the target becomes what
      `set` makes of it (it holds the value and keeps its wiring), its own
      inputs are notified iff it changed, and no other output and no slot
      changes. */
  lemma RelayForwardsBySet<V>(net: Network<V>, serial: nat, t: nat, v: Option<V>)
    requires t in net.outputs
    ensures Deliver(net, Relay(serial, t), v).net.outputs[t].held == v
    ensures Deliver(net, Relay(serial, t), v).executed == {}
    ensures Deliver(net, Relay(serial, t), v).pending ==
            (if v != net.outputs[t].held then net.outputs[t].bound else {})
    ensures Deliver(net, Relay(serial, t), v).net.values == net.values
    ensures Deliver(net, Relay(serial, t), v).net.outputs[t] == Set(net.outputs[t], v).out
    ensures Deliver(net, Relay(serial, t), v).net.outputs[t].bound == net.outputs[t].bound
    ensures forall t2 :: t2 in net.outputs && t2 != t ==>
              Deliver(net, Relay(serial, t), v).net.outputs[t2] == net.outputs[t2]
  {
  }
}

=== FILE: memory.dfy ===
/** `Memory` of `std_components.rb`: a Ruby array of bytes read as
    little-endian unsigned 32-bit words and written only when the clock
    ticks.  Indexing follows Ruby `Array`: negative addresses count from
    the end, and a write near the end grows the array. */
module Memory {
  import opened Wrappers
  import opened Gates

  type Byte = b: int | 0 <= b < 256

  const WordModulus: int := 0x1_0000_0000

  /** `unpack("V")` of four bytes. */
  function LoadWord(b: seq<Byte>): nat
    requires |b| == 4
  {
    b[0] as int + 256 * (b[1] as int) + 65536 * (b[2] as int) + 16777216 * (b[3] as int)
  }

  /** `[w].pack("V").unpack("C*")`: the low 32 bits of `w`, least
      significant byte first. */
  function LittleEndian(w: int): (b: seq<Byte>)
    ensures |b| == 4
    ensures LoadWord(b) == w % WordModulus
  {
    var u := w % WordModulus;
    var u1 := u / 256;
    var u2 := u1 / 256;
    var u3 := u2 / 256;
    assert u == u % 256 + 256 * (u1 % 256) + 65536 * (u2 % 256) + 16777216 * u3 by {
      assert u == u % 256 + 256 * u1;
      assert u1 == u1 % 256 + 256 * u2;
      assert u2 == u2 % 256 + 256 * u3;
    }
    [u % 256, u1 % 256, u2 % 256, u3]
  }

  /** `Memory#execute`: `self[address, 4].pack("C*").unpack("V*")[0]`.
      A start beyond the end makes `self[...]` nil, and `nil.pack` raises;
      fewer than four bytes unpack to no word at all (nil). */
  function Read(mem: seq<Byte>, address: int): (r: Result<Option<int>>)
    ensures r.Err? <==> (address > |mem| || address < -|mem|)
    ensures 0 <= address && address + 4 <= |mem| ==>
              r == Ok(Some(LoadWord(mem[address..address + 4])))
    ensures 0 <= address <= |mem| < address + 4 ==> r == Ok(None)
    ensures -|mem| <= address <= -4 ==>
              r == Ok(Some(LoadWord(mem[address + |mem|..address + |mem| + 4])))
    ensures -4 < address < 0 && -|mem| <= address ==> r == Ok(None)
    ensures r.Ok? && r.value.Some? ==> 0 <= r.value.value < WordModulus
  {
    var start := if address < 0 then address + |mem| else address;
    if start < 0 || start > |mem| then Err(NilPack)
    else if start + 4 > |mem| then Ok(None)
    else Ok(Some(LoadWord(mem[start..start + 4])))
  }

  /** Ruby `self[j] = d` for an index at most the length: a negative index
      counts from the end, the index equal to the length appends. */
  function StoreByte(mem: seq<Byte>, j: int, d: Byte): (r: Result<seq<Byte>>)
    requires j <= |mem|
    ensures r.Err? <==> j < -|mem|
    ensures r.Ok? ==> |r.value| >= |mem| && (j >= 0 ==> |r.value| >= j + 1)
    ensures r.Ok? ==> |r.value| == (if j == |mem| then |mem| + 1 else |mem|)
  {
    if j == |mem| then Ok(mem + [d])
    else if j >= 0 then Ok(mem[j := d])
    else if j + |mem| >= 0 then Ok(mem[j + |mem| := d])
    else Err(IndexOutOfRange)
  }

  /** `data.each_with_index{|d, i| self[address + i] = d}`. */
  function StoreBytes(mem: seq<Byte>, address: int, bytes: seq<Byte>): (r: Result<seq<Byte>>)
    requires address <= |mem|
    ensures address < -|mem| && bytes != [] ==> r.Err?
    ensures r.Ok? ==> |r.value| == if address + |bytes| > |mem| then address + |bytes| else |mem|
    decreases |bytes|
  {
    if bytes == [] then Ok(mem)
    else
      var m1 :- StoreByte(mem, address, bytes[0]);
      StoreBytes(m1, address + 1, bytes[1..])
  }

  /** The bytes of `mem` with `bytes` laid over them from `address`,
      extending `mem` when they run past its end. */
  function Overlay(mem: seq<Byte>, address: nat, bytes: seq<Byte>): seq<Byte>
    requires address <= |mem|
  {
    mem[..address] + bytes + (if address + |bytes| <= |mem| then mem[address + |bytes|..] else [])
  }

  /** From a non-negative address the byte-by-byte store is one overlay:
      exactly the bytes `address .. address + |bytes| - 1` change. */
  lemma {:induction false} StoreBytesOverlay(mem: seq<Byte>, address: nat, bytes: seq<Byte>)
    requires address <= |mem|
    ensures StoreBytes(mem, address, bytes) == Ok(Overlay(mem, address, bytes))
    decreases |bytes|
  {
    if bytes == [] {
      assert mem[..address] + bytes + mem[address..] == mem;
    } else {
      var m1 := StoreByte(mem, address, bytes[0]).value;
      assert StoreBytes(mem, address, bytes) == StoreBytes(m1, address + 1, bytes[1..]);
      StoreBytesOverlay(m1, address + 1, bytes[1..]);
      OverlayFirstByte(mem, address, bytes);
    }
  }

  /** Storing the first byte and overlaying the rest one place further on
      is the overlay of all of them. */
  lemma OverlayFirstByte(mem: seq<Byte>, address: nat, bytes: seq<Byte>)
    requires address <= |mem| && bytes != []
    ensures StoreByte(mem, address, bytes[0]).Ok?
    ensures Overlay(StoreByte(mem, address, bytes[0]).value, address + 1, bytes[1..]) == Overlay(mem, address, bytes)
  {
    var m1 := StoreByte(mem, address, bytes[0]).value;
    var n := |bytes|;
    assert m1[..address + 1] == mem[..address] + [bytes[0]];
    assert mem[..address] + bytes == mem[..address] + [bytes[0]] + bytes[1..];
    if address == |mem| {
      assert |m1| == address + 1;
    } else {
      assert |m1| == |mem|;
      if address + n <= |mem| {
        assert m1[address + n..] == mem[address + n..];
      }
    }
  }

  /** `Memory#tick`: the deferred write of the low 32 bits of `write_data`,
      made only when `mem_write` is 1 and `address < length`.  From an
      address in `-length .. -1` the bytes at negative indices wrap to the
      end of the array and the rest land from index 0 on. */
  function Tick(mem: seq<Byte>, address: Option<int>, writeData: Option<int>, memWrite: Option<int>): (r: Result<seq<Byte>>)
    ensures memWrite != Some(1) || ToI(address) >= |mem| ==> r == Ok(mem)
    ensures r.Err? <==> memWrite == Some(1) && ToI(address) < -|mem|
    ensures r.Ok? ==> |r.value| >= |mem|
    ensures memWrite == Some(1) && 0 <= ToI(address) < |mem| ==>
              r == Ok(Overlay(mem, ToI(address), LittleEndian(ToI(writeData))))
    ensures memWrite == Some(1) && -|mem| <= ToI(address) < 0 ==>
              var a, data := ToI(address), LittleEndian(ToI(writeData));
              var k := if -a < 4 then -a else 4;
              r == Ok(Overlay(Overlay(mem, a + |mem|, data[..k]), 0, data[k..]))
  {
    var a := ToI(address);
    var data := LittleEndian(ToI(writeData));
    if memWrite == Some(1) && a < |mem| then
      if a >= 0 then
        StoreBytesOverlay(mem, a, data);
        StoreBytes(mem, a, data)
      else if a < -|mem| then
        StoreBytes(mem, a, data)
      else
        WrappedStore(mem, a, data);
        StoreBytes(mem, a, data)
    else
      Ok(mem)
  }

  /** A store from an address in `-length .. -1`: the bytes at negative
      indices overlay the end of the array, then the rest overlay it from
      index 0 (growing it if they run past the end). */
  lemma WrappedStore(mem: seq<Byte>, address: int, bytes: seq<Byte>)
    requires -|mem| <= address < 0
    ensures var k := if -address < |bytes| then -address else |bytes|;
            StoreBytes(mem, address, bytes) == Ok(Overlay(Overlay(mem, address + |mem|, bytes[..k]), 0, bytes[k..]))
  {
    var k := if -address < |bytes| then -address else |bytes|;
    assert bytes == bytes[..k] + bytes[k..];
    NegativeStoreOverlay(mem, address, bytes[..k]);
    var m1 := Overlay(mem, address + |mem|, bytes[..k]);
    StoreBytesSplit(mem, address, bytes[..k], bytes[k..]);
    if k < |bytes| {
      StoreBytesOverlay(m1, 0, bytes[k..]);
    } else {
      assert bytes[k..] == [];
      assert Overlay(m1, 0, []) == m1;
    }
  }

  /** Bytes stored at negative indices only: one overlay at the wrapped
      start, and the array keeps its length. */
  lemma {:induction false} NegativeStoreOverlay(mem: seq<Byte>, address: int, bytes: seq<Byte>)
    requires -|mem| <= address && address + |bytes| <= 0
    ensures StoreBytes(mem, address, bytes) == Ok(Overlay(mem, address + |mem|, bytes))
    ensures |Overlay(mem, address + |mem|, bytes)| == |mem|
    decreases |bytes|
  {
    if bytes == [] {
      assert mem[..address + |mem|] + bytes + mem[address + |mem|..] == mem;
    } else {
      var p := address + |mem|;
      var m1 := StoreByte(mem, address, bytes[0]).value;
      assert m1 == StoreByte(mem, p, bytes[0]).value;
      NegativeStoreOverlay(m1, address + 1, bytes[1..]);
      OverlayFirstByte(mem, p, bytes);
    }
  }

  /** Storing `b1 ++ b2` is storing `b1`, then `b2` right after it. */
  lemma {:induction false} StoreBytesSplit(mem: seq<Byte>, address: int, b1: seq<Byte>, b2: seq<Byte>)
    requires -|mem| <= address && address + |b1| <= 0
    ensures StoreBytes(mem, address, b1).Ok?
    ensures StoreBytes(mem, address, b1 + b2) ==
            StoreBytes(StoreBytes(mem, address, b1).value, address + |b1|, b2)
    decreases |b1|
  {
    NegativeStoreOverlay(mem, address, b1);
    if b1 != [] {
      var m1 := StoreByte(mem, address, b1[0]).value;
      assert (b1 + b2)[0] == b1[0] && (b1 + b2)[1..] == b1[1..] + b2;
      assert StoreBytes(mem, address, b1 + b2) == StoreBytes(m1, address + 1, b1[1..] + b2);
      assert StoreBytes(mem, address, b1) == StoreBytes(m1, address + 1, b1[1..]);
      StoreBytesSplit(m1, address + 1, b1[1..], b2);
    } else {
      assert b1 + b2 == b2;
    }
  }

  /** From an address in `-length .. length` every byte lands inside the
      array or just past its end, so the store never raises. */
  lemma {:induction false} InRangeStoreSucceeds(mem: seq<Byte>, address: int, bytes: seq<Byte>)
    requires -|mem| <= address <= |mem|
    ensures StoreBytes(mem, address, bytes).Ok?
    decreases |bytes|
  {
    if bytes != [] {
      var m1 := StoreByte(mem, address, bytes[0]);
      InRangeStoreSucceeds(m1.value, address + 1, bytes[1..]);
    }
  }

  /** Write/read round trip: after a committed write of `w` at a
      non-negative address inside the memory, reading there yields `w`
      modulo 2^32, even when the write grew the memory. */
  lemma WriteThenRead(mem: seq<Byte>, address: int, w: int)
    requires 0 <= address < |mem|
    ensures Tick(mem, Some(address), Some(w), Some(1)).Ok?
    ensures Read(Tick(mem, Some(address), Some(w), Some(1)).value, address) == Ok(Some(w % WordModulus))
  {
    var m := Overlay(mem, address, LittleEndian(w));
    assert m[address..address + 4] == LittleEndian(w);
  }

  /** The same round trip from a negative address at least four bytes
      before the end: write and read wrap to the same place. */
  lemma WrappedWriteThenRead(mem: seq<Byte>, address: int, w: int)
    requires -|mem| <= address <= -4
    ensures Tick(mem, Some(address), Some(w), Some(1)).Ok?
    ensures Read(Tick(mem, Some(address), Some(w), Some(1)).value, address) == Ok(Some(w % WordModulus))
  {
    var data := LittleEndian(w);
    var p := address + |mem|;
    var m := Overlay(mem, p, data);
    assert data[..4] == data && data[4..] == [];
    assert Overlay(m, 0, []) == m;
    assert |m| == |mem|;
    assert m[p..p + 4] == data;
  }

  /** A committed write from a non-negative address inside the memory
      leaves every byte outside the written word as it was. */
  lemma WriteKeepsOtherBytes(mem: seq<Byte>, address: int, w: int, j: int)
    requires 0 <= address < |mem|
    requires 0 <= j < |mem| && !(address <= j < address + 4)
    ensures Tick(mem, Some(address), Some(w), Some(1)).value[j] == mem[j]
  {
  }

  /** A committed write from an address in `-length .. -1` leaves every
      byte outside the written word as it was: the word covers the bytes
      from `address + length` up to the end, and the bytes that wrap past
      index -1 land from index 0. */
  lemma WrappedWriteKeepsOtherBytes(mem: seq<Byte>, address: int, w: int, j: int)
    requires -|mem| <= address < 0
    requires 0 <= j < |mem|
    requires !(address + |mem| <= j < address + |mem| + 4) && !(0 <= j < address + 4)
    ensures Tick(mem, Some(address), Some(w), Some(1)).value[j] == mem[j]
  {
  }
}

=== FILE: pipeline.dfy ===
/** What one clock cycle of the pipeline does, and what a run does. */
module Pipeline {
  import opened Wrappers
  import opened Gates
  import Memory
  import opened Registers
  import opened Cpu
  import opened Datapath
  import opened Encoding

  /** A one-bit control value as latched: 0, 1, or not yet driven. */
  predicate Flag(x: Option<int>) {
    x == None || x == Some(0) || x == Some(1)
  }

  /** A latched register index: a 5-bit field, or not yet driven. */
  predicate RegIndex(x: Option<int>) {
    x == None || (x.Some? && 0 <= x.value < RegisterCount)
  }

  /** The shape every state reachable from start-up has: `InitialWellFormed`
      establishes it and `StepWellFormed` keeps it. */
  ghost predicate WellFormed(s: State) {
    && |s.regs| == RegisterCount
    && Flag(s.ifId.flushed) && (s.ifId.started == None || s.ifId.started == Some(1))
    && Flag(s.idEx.terminate) && Flag(s.idEx.regWrite) && Flag(s.idEx.regDst) && Flag(s.idEx.memRead)
    && Flag(s.idEx.aluSrc) && Flag(s.idEx.memWrite) && Flag(s.idEx.memToReg) && Flag(s.idEx.isReal)
    && RegIndex(s.idEx.instrRs) && RegIndex(s.idEx.instrRt) && RegIndex(s.idEx.instrRd)
    && Flag(s.exMem.terminate) && Flag(s.exMem.regWrite) && Flag(s.exMem.memWrite)
    && Flag(s.exMem.memToReg) && Flag(s.exMem.isReal) && RegIndex(s.exMem.writeReg)
    && Flag(s.memWb.regWrite) && Flag(s.memWb.memToReg) && Flag(s.memWb.isReal) && RegIndex(s.memWb.writeReg)
  }

  /** The circuit after start-up: the PC at 4096 with nothing latched, no
      halt and no count.  Its first fetch raises unless the image has at
      least 4096 bytes, so a smaller image fails before any cycle; on an
      image of exactly 4096 bytes the first fetch reads nil. */
  lemma InitialWellFormed(image: seq<Memory.Byte>)
    ensures Initial(image).Ok? <==> |image| >= InitialPc
    ensures Initial(image).Ok? ==> WellFormed(Initial(image).value)
    ensures Initial(image).Ok? ==>
              && Initial(image).value.pc == Some(4096)
              && Initial(image).value.dmem == image
              && Initial(image).value.system.count == None
              && !Terminated(Initial(image).value.system)
              && forall k :: 0 <= k < RegisterCount ==> Initial(image).value.regs[k] == None
  {
  }

  /** In a well-formed state the register bank always names a real
      register, so a cycle's signals fail to settle exactly when the PC
      lies outside the instruction memory, and then with `nil.pack`. */
  lemma OnlyMemoryFaults(s: State)
    requires WellFormed(s)
    ensures Comb(s).Err? <==> ToI(s.pc) > |s.imem| || ToI(s.pc) < -|s.imem|
    ensures Comb(s).Err? ==> Comb(s).fault == NilPack
  {
  }

  // ---------------------------------------------------------------------
  // What the signals of a cycle mean.  Each predicate states the rules of
  // one part of the datapath without the multiplexer plumbing.

  /** Decode: the fields and control lines of the IF/ID word, the
      load-use stall, the register reads with their same-cycle bypass from
      writeback, and branch resolution on the (not forwarded) reads. */
  ghost predicate DecodeRules(s: State, g: Signals) {
    var f := Split(s.ifId.instr);
    var c := Decode(f.opcode);
    var wb := Writeback(s.memWb);
    && |s.regs| == RegisterCount
    && g.fields == f && g.control == c
    && g.hazard.nop == (if LoadUse(s.idEx.memRead, s.idEx.instrRt, Some(f.rs), Some(f.rt)) then 1 else 0)
    && g.hazard.pcWrite == 1 - g.hazard.nop && g.hazard.ifIdWrite == g.hazard.pcWrite
    && g.readData1 == (if Some(f.rs) == s.memWb.writeReg && s.memWb.regWrite == Some(1) then wb else s.regs[f.rs])
    && g.readData2 == (if Some(f.rt) == s.memWb.writeReg && s.memWb.regWrite == Some(1) then wb else s.regs[f.rt])
    && g.taken == (if c.branch == 1 && g.readData1 == g.readData2 then 1 else 0)
    && g.branchOrJump == (if c.jump == 1 || g.taken == 1 then 1 else 0)
  }

  /** Fetch: the PC is held on a stall, else goes to the jump field times
      4 (no PC high bits), to PC + 4 * immediate on a taken branch, or to
      PC+4; IF/ID is squashed to 0 behind a taken branch or jump, holds
      its word on a stall, and otherwise takes the word at the PC. */
  ghost predicate FetchRules(s: State, g: Signals) {
    && Memory.Read(s.imem, ToI(s.pc)).Ok?
    && g.nextPc == (if g.hazard.nop == 1 then s.pc
                    else if g.control.jump == 1 then Some(g.fields.target * 4)
                    else if g.taken == 1 then Some(ToI(s.pc) + g.fields.immediate * 4)
                    else Some(ToI(s.pc) + 4))
    && g.nextInstr == (if g.branchOrJump == 1 then Some(0)
                       else if g.hazard.nop == 1 then s.ifId.instr
                       else Memory.Read(s.imem, ToI(s.pc)).value)
  }

  /** Issue: a bubble clears `reg_write` and `mem_write`; the instruction
      entering ID/EX counts iff IF/ID was started, no bubble is inserted
      and the word was not squashed. */
  ghost predicate IssueRules(s: State, g: Signals) {
    && g.regWriteOrNop == Some(if g.hazard.nop == 1 then 0 else g.control.regWrite)
    && g.memWriteOrNop == Some(if g.hazard.nop == 1 then 0 else g.control.memWrite)
    && g.isReal == (if s.ifId.started == Some(1) && g.hazard.nop == 0 && s.ifId.flushed != Some(1) then 1 else 0)
  }

  /** The operand a forwarding selector picks. */
  function Forwarded(select: int, fromRegisters: Option<int>, fromWriteback: Option<int>, fromExMem: Option<int>): Option<int> {
    if select == 2 then fromExMem else if select == 1 then fromWriteback else fromRegisters
  }

  /** Execute: each ALU operand comes from the most recent producer of
      its source register; the second operand is the immediate when
      `alu_src` is 1; the destination is rd when `reg_dst` is 1, else rt. */
  ghost predicate ExecuteRules(s: State, g: Signals) {
    var selA := ForwardSelect(s.exMem.regWrite, s.memWb.regWrite, s.exMem.writeReg, s.memWb.writeReg, s.idEx.instrRs);
    var selB := ForwardSelect(s.exMem.regWrite, s.memWb.regWrite, s.exMem.writeReg, s.memWb.writeReg, s.idEx.instrRt);
    && g.forwardA == Forwarded(selA, s.idEx.readData1, g.writeback, s.exMem.aluResult)
    && g.forwardB == Forwarded(selB, s.idEx.readData2, g.writeback, s.exMem.aluResult)
    && g.alu == Alu(g.forwardA, if s.idEx.aluSrc == Some(1) then s.idEx.immediate else g.forwardB, s.aluCtl)
    && g.writeReg == (if s.idEx.regDst == Some(1) then s.idEx.instrRd else s.idEx.instrRt)
  }

  /** Writeback: the value written is the memory data when `mem_to_reg`
      is 1 and the ALU result otherwise, and exactly the indexed register
      takes it, only when `reg_write` is 1. */
  ghost predicate WritebackRules(s: State, g: Signals) {
    && g.writeback == (if s.memWb.memToReg == Some(1) then s.memWb.readData else s.memWb.aluResult)
    && |s.regs| == RegisterCount && |g.staged| == RegisterCount
    && forall k :: 0 <= k < RegisterCount ==>
         g.staged[k] == (if s.memWb.regWrite == Some(1) && ToI(s.memWb.writeReg) == k then g.writeback else s.regs[k])
  }

  /** All the rules of a cycle. */
  ghost predicate Settles(s: State, g: Signals) {
    DecodeRules(s, g) && FetchRules(s, g) && IssueRules(s, g) && ExecuteRules(s, g) && WritebackRules(s, g)
  }

  /** The next-PC multiplexers on bits. */
  lemma NextPcRule(pc: Option<int>, f: Fields, c: ControlLines, taken: int, pcWrite: int)
    requires IsBit(taken) && IsBit(c.jump) && IsBit(pcWrite)
    ensures SelectPc(pc, f, c, taken, pcWrite) ==
              if pcWrite == 0 then pc
              else if c.jump == 1 then Some(f.target * 4)
              else if taken == 1 then Some(ToI(pc) + f.immediate * 4)
              else Some(ToI(pc) + 4)
  {
    assert Bits.Pow2(2) == 4;
  }

  /** The IF/ID multiplexers on bits. */
  lemma NextInstrRule(latched: Option<int>, fetched: Option<int>, ifIdWrite: int, branchOrJump: int)
    requires IsBit(ifIdWrite) && IsBit(branchOrJump)
    ensures SelectInstr(latched, fetched, ifIdWrite, branchOrJump) ==
              if branchOrJump == 1 then Some(0) else if ifIdWrite == 0 then latched else fetched
  {
  }

  /** The PC lies where a Ruby array index into instruction memory does
      not run off the front or past the end: the fetch does not raise. */
  predicate Fits(s: State) {
    -|s.imem| <= ToI(s.pc) <= |s.imem|
  }

  lemma CombDecodes(s: State)
    requires WellFormed(s) && Fits(s)
    ensures Comb(s).Ok? && DecodeRules(s, Comb(s).value)
  {
    OnlyMemoryFaults(s);
    var g := Comb(s).value;
    var f := Split(s.ifId.instr);
    var wb := Writeback(s.memWb);
    ReadPortBypass(s.regs, None, f.rs, s.memWb.writeReg, wb, s.memWb.regWrite);
    ReadPortBypass(s.regs, None, f.rt, s.memWb.writeReg, wb, s.memWb.regWrite);
    GatesOnBits(Some(g.control.branch), Some(EqualityTest(g.readData1, g.readData2)));
    GatesOnBits(Some(g.control.jump), Some(g.taken));
  }

  lemma CombFetches(s: State)
    requires WellFormed(s) && Fits(s)
    ensures Comb(s).Ok? && FetchRules(s, Comb(s).value)
  {
    CombDecodes(s);
    var g := Comb(s).value;
    var fetched := Fallible(s).value.fetched;
    assert g.nextPc == SelectPc(s.pc, g.fields, g.control, g.taken, g.hazard.pcWrite);
    assert g.nextInstr == SelectInstr(s.ifId.instr, fetched, g.hazard.ifIdWrite, g.branchOrJump);
    NextPcRule(s.pc, g.fields, g.control, g.taken, g.hazard.pcWrite);
    NextInstrRule(s.ifId.instr, fetched, g.hazard.ifIdWrite, g.branchOrJump);
  }

  lemma CombIssues(s: State)
    requires WellFormed(s) && Fits(s)
    ensures Comb(s).Ok? && IssueRules(s, Comb(s).value)
  {
    CombDecodes(s);
    var g := Comb(s).value;
    GatesOnBits(Some(g.hazard.nop), s.ifId.flushed);
    var isNop := OrGate(Some(g.hazard.nop), s.ifId.flushed);
    GatesOnBits(Some(NotGate(Some(isNop))), s.ifId.started);
  }

  lemma CombExecutes(s: State)
    requires WellFormed(s) && Fits(s)
    ensures Comb(s).Ok? && ExecuteRules(s, Comb(s).value)
  {
    OnlyMemoryFaults(s);
    ForwardingPriority(s.exMem.regWrite, s.memWb.regWrite, s.exMem.writeReg, s.memWb.writeReg,
                       s.idEx.instrRt, s.idEx.instrRs);
  }

  lemma CombWritesBack(s: State)
    requires WellFormed(s) && Fits(s)
    ensures Comb(s).Ok? && WritebackRules(s, Comb(s).value)
  {
    OnlyMemoryFaults(s);
  }

  /** The settled signals of a well-formed state follow the rules of
      every stage. */
  lemma CombSettles(s: State)
    requires WellFormed(s) && Fits(s)
    ensures Comb(s).Ok? && Settles(s, Comb(s).value)
  {
    CombDecodes(s);
    CombFetches(s);
    CombIssues(s);
    CombExecutes(s);
    CombWritesBack(s);
  }

  // ---------------------------------------------------------------------
  // One clock edge.

  /** A successful cycle is the edge over the signals of its first state. */
  lemma StepShape(v: Variant, s: State)
    ensures Step(v, s).Ok? ==> Comb(s).Ok? && Advance(v, s, Comb(s).value) == Step(v, s)
  {
  }

  /** What the edge latches, given the cycle's signals `g`: the PC, the
      four latch banks, the register file and the system unit. */
  ghost predicate Edge(v: Variant, s: State, g: Signals, n: State) {
    && n.pc == g.nextPc
    && n.ifId == IfId(g.nextInstr, Some(g.branchOrJump), Some(1))
    && n.idEx == NextIdEx(v, g)
    && n.exMem == NextExMem(s.idEx, g)
    && n.memWb == NextMemWb(s.exMem, s.dmemOut)
    && n.regs == g.staged
    && n.system == SystemTick(SystemTickPrep(s.system, s.exMem.terminate, s.memWb.isReal))
    && n.imem == s.imem
  }

  /** The edge latches what `Edge` says, and the data memory commits the
      write EX/MEM asks for. */
  lemma AdvanceLatches(v: Variant, s: State, g: Signals, n: State)
    requires Advance(v, s, g) == Ok(n)
    ensures Edge(v, s, g, n)
    ensures Memory.Tick(s.dmem, s.exMem.aluResult, s.exMem.forwardBData, s.exMem.memWrite) == Ok(n.dmem)
  {
  }

  /** An edge keeps a state well-formed. */
  lemma EdgeWellFormed(v: Variant, s: State, g: Signals, n: State)
    requires WellFormed(s) && Settles(s, g) && Edge(v, s, g, n)
    ensures WellFormed(n)
  {
  }

  /** Latch-bank shifting: every EX/MEM and MEM/WB entry that has a
      same-named entry in the bank before it takes that entry's pre-edge
      value, and the MEM/WB memory data is the data memory's output. */
  lemma EdgeShiftsLatches(v: Variant, s: State, g: Signals, n: State)
    requires Edge(v, s, g, n)
    ensures n.exMem.terminate == s.idEx.terminate && n.exMem.regWrite == s.idEx.regWrite
    ensures n.exMem.memWrite == s.idEx.memWrite && n.exMem.memToReg == s.idEx.memToReg
    ensures n.exMem.isReal == s.idEx.isReal && n.exMem.debugName == s.idEx.debugName
    ensures n.memWb.regWrite == s.exMem.regWrite && n.memWb.writeReg == s.exMem.writeReg
    ensures n.memWb.aluResult == s.exMem.aluResult && n.memWb.memToReg == s.exMem.memToReg
    ensures n.memWb.isReal == s.exMem.isReal && n.memWb.debugName == s.exMem.debugName
    ensures n.memWb.readData == s.dmemOut
  {
  }

  /** Fetch over one edge: the PC and IF/ID follow the fetch rules. */
  lemma EdgeFetches(v: Variant, s: State, g: Signals, n: State)
    requires DecodeRules(s, g) && FetchRules(s, g) && Edge(v, s, g, n)
    ensures n.pc == (if g.hazard.nop == 1 then s.pc
                     else if g.control.jump == 1 then Some(g.fields.target * 4)
                     else if g.taken == 1 then Some(ToI(s.pc) + g.fields.immediate * 4)
                     else Some(ToI(s.pc) + 4))
    ensures g.branchOrJump == 1 ==> n.ifId.instr == Some(0) && n.ifId.flushed == Some(1)
    ensures g.branchOrJump == 0 ==> n.ifId.flushed == Some(0)
    ensures g.branchOrJump == 0 && g.hazard.nop == 1 ==> n.ifId.instr == s.ifId.instr
    ensures n.ifId.started == Some(1)
  {
  }

  /** Writeback over one edge: exactly the register MEM/WB names changes,
      only when its `reg_write` is 1, and it takes the memory data or the
      ALU result as `mem_to_reg` says. */
  lemma EdgeWritesBack(v: Variant, s: State, g: Signals, n: State)
    requires WritebackRules(s, g) && Edge(v, s, g, n)
    ensures |n.regs| == RegisterCount
    ensures forall k :: 0 <= k < RegisterCount ==>
              n.regs[k] == (if s.memWb.regWrite == Some(1) && ToI(s.memWb.writeReg) == k
                            then (if s.memWb.memToReg == Some(1) then s.memWb.readData else s.memWb.aluResult)
                            else s.regs[k])
  {
  }

  /** Retire accounting over one edge: the instruction entering ID/EX
      counts iff IF/ID holds a started, unflushed instruction and no
      bubble is inserted; the count rises by one exactly when MEM/WB's
      entry counts, and the halt flag latches EX/MEM's `terminate`. */
  lemma EdgeRetires(v: Variant, s: State, g: Signals, n: State)
    requires IssueRules(s, g) && Edge(v, s, g, n)
    ensures n.idEx.isReal == Some(1) <==>
              s.ifId.started == Some(1) && g.hazard.nop == 0 && s.ifId.flushed != Some(1)
    ensures n.system.count == Some(s.system.count.GetOr(0) + (if s.memWb.isReal == Some(1) then 1 else 0))
    ensures Terminated(n.system) <==> s.exMem.terminate == Some(1)
  {
    SystemEdge(s.system, s.exMem.terminate, s.memWb.isReal);
  }

  /** A cycle keeps a state well-formed; with `InitialWellFormed` this
      makes every state of a run well-formed, so the stage rules above
      apply to each of them. */
  lemma StepWellFormed(v: Variant, s: State)
    requires WellFormed(s)
    ensures Step(v, s).Ok? ==> WellFormed(Step(v, s).value)
  {
    if Step(v, s).Ok? {
      StepShape(v, s);
      OnlyMemoryFaults(s);
      CombSettles(s);
      AdvanceLatches(v, s, Comb(s).value, Step(v, s).value);
      EdgeWellFormed(v, s, Comb(s).value, Step(v, s).value);
    }
  }

  /** One edge retires at most one instruction. */
  lemma StepCounts(v: Variant, s: State)
    ensures Step(v, s).Ok? ==> Step(v, s).value.system.count.GetOr(0) <= s.system.count.GetOr(0) + 1
  {
    StepShape(v, s);
    SystemEdge(s.system, s.exMem.terminate, s.memWb.isReal);
  }

  /** ALU control stays at a fixed point of its inputs across an edge, and
      so shows the function of the decoded `alu_op` and the IF/ID function
      code; the value left over from earlier cycles survives only under
      `:f` with an unimplemented function code. */
  lemma AluCtlStaysSettled(oldOp: Option<AluOp>, newOp: Option<AluOp>, oldFunct: int, newFunct: int,
                           previous: Option<AluFn>)
    requires previous == AluControl(oldOp, oldFunct, previous)
    ensures var r := NextAluCtl(oldOp, newOp, oldFunct, newFunct, previous);
      r == AluControl(newOp, newFunct, r)
    ensures newOp.Some? && (newOp != Some(Funct) || newFunct == 0x20) ==>
              NextAluCtl(oldOp, newOp, oldFunct, newFunct, previous) == AluControl(newOp, newFunct, None)
  {
    AluControlIdempotent(oldOp, newFunct, previous);
    var after := if newFunct != oldFunct then AluControl(oldOp, newFunct, previous) else previous;
    AluControlIdempotent(newOp, newFunct, after);
    AluControlKeepsOnlyOnUnknownFunct(newOp, newFunct, NextAluCtl(oldOp, newOp, oldFunct, newFunct, previous), None);
  }

  /** The data memory output after an edge is what the memory now holds at
      the EX/MEM address, provided it was before the edge, unless EX/MEM
      holds a store whose address, data and write line all repeat the
      previous ones (a store never writes its memory data back). */
  lemma DmemOutFresh(before: ExMem, after: ExMem, dmem: seq<Memory.Byte>, written: seq<Memory.Byte>, previous: Option<int>)
    requires Memory.Tick(dmem, before.aluResult, before.forwardBData, before.memWrite) == Ok(written)
    requires Memory.Read(dmem, ToI(before.aluResult)) == Ok(previous)
    requires (after.aluResult, after.forwardBData, after.memWrite) != (before.aluResult, before.forwardBData, before.memWrite)
             || before.memWrite != Some(1)
    ensures NextDmemOut(before, after, written, previous) == Memory.Read(written, ToI(after.aluResult))
  {
  }

  // ---------------------------------------------------------------------
  // Runs.

  /** The driver tests the halt flag before ticking: once it is latched
      the run ends in that iteration with the state untouched. */
  lemma RunStopsBeforeTicking(v: Variant, s: State, cycles: nat, limit: nat)
    requires cycles < limit && Terminated(s.system)
    ensures Run(v, s, cycles, limit) == Ok(Outcome(s, cycles + 1, true))
  {
  }

  /** Over any step that retires at most one instruction, a loop ends on
      the halt flag or on the cycle limit, and the count rises by at most
      the number of cycles that pass. */
  lemma {:induction false} LoopAccounting(step: State -> Result<State>, s: State, cycles: nat, limit: nat)
    requires cycles <= limit
    requires forall t :: step(t).Ok? ==> step(t).value.system.count.GetOr(0) <= t.system.count.GetOr(0) + 1
    ensures var r := Loop(step, s, cycles, limit);
      r.Ok? ==>
        && (r.value.halted ==> Terminated(r.value.state.system))
        && (!r.value.halted ==> r.value.cycles == limit)
        && r.value.cycles <= limit
        && r.value.state.system.count.GetOr(0) + cycles <= s.system.count.GetOr(0) + r.value.cycles
    decreases limit - cycles
  {
    if cycles < limit && !Terminated(s.system) && step(s).Ok? {
      LoopAccounting(step, step(s).value, cycles + 1, limit);
    }
  }

  /** A run ends on the halt flag or on the cycle limit, and every edge
      retires at most one instruction, so at least as many cycles pass as
      instructions retire (CPI is at least 1). */
  lemma RunAccounting(v: Variant, s: State, cycles: nat, limit: nat)
    requires cycles <= limit
    ensures var r := Run(v, s, cycles, limit);
      r.Ok? ==>
        && (r.value.halted ==> Terminated(r.value.state.system))
        && (!r.value.halted ==> r.value.cycles == limit)
        && r.value.cycles <= limit
        && r.value.state.system.count.GetOr(0) + cycles <= s.system.count.GetOr(0) + r.value.cycles
  {
    var step := t => Step(v, t);
    forall t | step(t).Ok?
      ensures step(t).value.system.count.GetOr(0) <= t.system.count.GetOr(0) + 1
    {
      StepCounts(v, t);
    }
    LoopAccounting(step, s, cycles, limit);
  }

  /** Over any step that keeps an invariant under which the halt flag is
      down, a loop never halts and ends in a state that keeps it. */
  lemma {:induction false} LoopKeeps(step: State -> Result<State>, inv: State -> bool, s: State, cycles: nat, limit: nat)
    requires cycles <= limit && inv(s)
    requires forall t :: inv(t) ==> !Terminated(t.system)
    requires forall t :: inv(t) && step(t).Ok? ==> inv(step(t).value)
    ensures Loop(step, s, cycles, limit).Ok? ==>
              !Loop(step, s, cycles, limit).value.halted && inv(Loop(step, s, cycles, limit).value.state)
    decreases limit - cycles
  {
    if cycles < limit && step(s).Ok? {
      LoopKeeps(step, inv, step(s).value, cycles + 1, limit);
    }
  }

  /** A loop over a step that keeps an invariant ends in a state that
      keeps it, whether it halts or hits the cycle limit. */
  lemma {:induction false} LoopPreserves(step: State -> Result<State>, inv: State -> bool, s: State, cycles: nat, limit: nat)
    requires cycles <= limit && inv(s)
    requires forall t :: inv(t) && step(t).Ok? ==> inv(step(t).value)
    ensures Loop(step, s, cycles, limit).Ok? ==> inv(Loop(step, s, cycles, limit).value.state)
    decreases limit - cycles
  {
    if cycles < limit && !Terminated(s.system) && step(s).Ok? {
      LoopPreserves(step, inv, step(s).value, cycles + 1, limit);
    }
  }

  /** Every state a run from a well-formed state ends in is well-formed. */
  lemma RunWellFormed(v: Variant, s: State, cycles: nat, limit: nat)
    requires cycles <= limit && WellFormed(s)
    ensures Run(v, s, cycles, limit).Ok? ==> WellFormed(Run(v, s, cycles, limit).value.state)
  {
    var step := t => Step(v, t);
    forall t | WellFormed(t) && step(t).Ok?
      ensures WellFormed(step(t).value)
    {
      StepWellFormed(v, t);
    }
    LoopPreserves(step, t => WellFormed(t), s, cycles, limit);
  }

  // ---------------------------------------------------------------------
  // Load-use stalls.

  /** A decode-stage load whose own bubble already sits in ID/EX: the bubble
      still says "load into rt", and rt is the load's own destination. */
  ghost predicate StalledLoad(s: State) {
    && OpcodeOf(s.ifId.instr) == LW
    && s.idEx.memRead == Some(1)
    && s.idEx.instrRt == Some(RtOf(s.ifId.instr))
  }

  /** A load that depends on the load just before it gets stalled, and its
      bubble leaves the pipeline in a `StalledLoad` state. */
  lemma LoadAfterLoadStalls(s: State, g: Signals, n: State)
    requires DecodeRules(s, g) && FetchRules(s, g) && Edge(AsWritten, s, g, n)
    requires OpcodeOf(s.ifId.instr) == LW
    requires s.idEx.memRead == Some(1) && s.idEx.instrRt == Some(RsOf(s.ifId.instr))
    ensures g.hazard.nop == 1
    ensures StalledLoad(n)
  {
    DecodeFollowsTable(LW);
  }

  /** As written, a stalled load stalls again on every later cycle: the PC
      and IF/ID stay put, and the instruction never enters ID/EX as a
      counted instruction. */
  lemma StalledLoadStallsAgain(s: State, g: Signals, n: State)
    requires StalledLoad(s) && DecodeRules(s, g) && FetchRules(s, g) && IssueRules(s, g) && Edge(AsWritten, s, g, n)
    ensures g.hazard.nop == 1
    ensures StalledLoad(n)
    ensures n.pc == s.pc && n.ifId.instr == s.ifId.instr
    ensures n.idEx.isReal == Some(0)
  {
    DecodeFollowsTable(LW);
  }

  /** A stalled load with no halt on its way through EX/MEM: the state
      the livelock keeps, with the PC fixed at `pc`. */
  ghost predicate Livelocked(s: State, pc: Option<int>) {
    && WellFormed(s) && StalledLoad(s) && !Terminated(s.system)
    && s.exMem.terminate != Some(1) && s.idEx.terminate != Some(1)
    && s.pc == pc
  }

  /** One cycle of the livelock: the next state is livelocked at the same PC. */
  lemma LivelockEdge(s: State, pc: Option<int>)
    requires Livelocked(s, pc)
    ensures Step(AsWritten, s).Ok? ==> Livelocked(Step(AsWritten, s).value, pc)
  {
    if Step(AsWritten, s).Err? {
      return;
    }
    StepShape(AsWritten, s);
    OnlyMemoryFaults(s);
    CombSettles(s);
    var g := Comb(s).value;
    var n := Step(AsWritten, s).value;
    AdvanceLatches(AsWritten, s, g, n);
    EdgeWellFormed(AsWritten, s, g, n);
    StalledLoadStallsAgain(s, g, n);
    EdgeRetires(AsWritten, s, g, n);
    EdgeShiftsLatches(AsWritten, s, g, n);
    DecodeFollowsTable(LW);
  }

  /** The livelock over whole runs: from a stalled load, however many
      cycles are allowed, a run that does not fail ends on the cycle limit
      (it never halts) with the PC unchanged. */
  lemma StalledLoadNeverHalts(s: State, cycles: nat, limit: nat)
    requires WellFormed(s) && StalledLoad(s) && !Terminated(s.system)
    requires s.exMem.terminate != Some(1) && s.idEx.terminate != Some(1)
    requires cycles <= limit
    ensures Run(AsWritten, s, cycles, limit).Ok? ==>
              !Run(AsWritten, s, cycles, limit).value.halted &&
              Run(AsWritten, s, cycles, limit).value.state.pc == s.pc
  {
    var step := t => Step(AsWritten, t);
    var inv := t => Livelocked(t, s.pc);
    forall t | inv(t) && step(t).Ok?
      ensures inv(step(t).value)
    {
      LivelockEdge(t, s.pc);
    }
    LoopKeeps(step, inv, s, cycles, limit);
  }

  /** The pair `LW R1, 0(R0); LW R2, 0(R1)` reaches the stalled state: the
      second load names R1, the first load's destination, as rs. */
  lemma LoadPairEncoding()
    ensures Split(Some(EncodeI(LW, 1, 2, 0))).opcode == LW
    ensures Split(Some(EncodeI(LW, 1, 2, 0))).rs == 1
    ensures Split(Some(EncodeI(LW, 1, 2, 0))).rt == 2
    ensures Split(Some(EncodeI(LW, 0, 1, 0))).rt == 1
  {
    SplitEncodeI(LW, 1, 2, 0);
    SplitEncodeI(LW, 0, 1, 0);
  }

  /** With bubbles that clear `mem_read`, a load-use stall lasts exactly one
      cycle: the cycle after a stall never stalls. */
  lemma StallLastsOneCycle(s: State, g: Signals, n: State, h: Signals)
    requires DecodeRules(s, g) && Edge(BubbleClearsMemRead, s, g, n)
    requires g.hazard.nop == 1 && DecodeRules(n, h)
    ensures h.hazard.nop == 0
  {
  }

  /** As written, the stall also lasts one cycle whenever the stalled
      instruction is not itself a load. */
  lemma StallOfNonLoadLastsOneCycle(s: State, g: Signals, n: State, h: Signals)
    requires DecodeRules(s, g) && Edge(AsWritten, s, g, n)
    requires g.hazard.nop == 1 && DecodeRules(n, h)
    requires OpcodeOf(s.ifId.instr) != LW
    ensures h.hazard.nop == 0
  {
    DecodeFollowsTable(LW);
  }
}

=== FILE: registers.dfy ===
/** The sequential parts of `std_components.rb`: the two-phase `Register`,
    the `Clock` that prepares every register before committing any, and
    the 32-entry `RegisterBank` with its same-cycle write-to-read bypass. */
module Registers {
  import opened Wrappers
  import opened Gates

  /** A `Register`: the value on its input slot, the value captured by
      `tick_prep` (`@midtick`) and the value it publishes (`@stored`). */
  datatype Register<V> = Register(input: Option<V>, midtick: Option<V>, stored: Option<V>)

  /** `Register.new(value)`: nothing on the input yet. */
  function NewRegister<V>(init: Option<V>): Register<V> {
    Register(None, init, init)
  }

  /** Driving the input slot (`register << v`, or a wire into it). */
  function Drive<V>(r: Register<V>, v: Option<V>): Register<V> {
    r.(input := v)
  }

  /** `Register#tick_prep`. */
  function TickPrep<V>(r: Register<V>): (p: Register<V>)
    ensures p.stored == r.stored && p.input == r.input
    ensures p.midtick == r.input
  {
    r.(midtick := r.input)
  }

  /** `Register#tick`, which then re-executes to publish `@stored`. */
  function Tick<V>(r: Register<V>): (t: Register<V>)
    ensures t.stored == r.midtick
    ensures t.input == r.input && t.midtick == r.midtick
  {
    r.(stored := r.midtick)
  }

  /** Preparing does not change what the register shows; the following
      commit publishes exactly what was on the input at preparation. */
  lemma PrepareThenCommit<V>(r: Register<V>)
    ensures TickPrep(r).stored == r.stored
    ensures Tick(TickPrep(r)).stored == r.input
    ensures Tick(TickPrep(r)).input == r.input
  {
  }

  /** A chain of registers, each one's input wired to the previous one's
      output, as the pipeline latch banks are wired. */
  ghost predicate Chained<V>(rs: seq<Register<V>>) {
    forall i :: 0 < i < |rs| ==> rs[i].input == rs[i - 1].stored
  }

  /** `Clock#tick` over a chain: every `tick_prep` runs before any `tick`,
      and each commit re-drives the next register's input.  Every register
      therefore takes its predecessor's pre-edge value. */
  method ClockTick<V>(rs: seq<Register<V>>) returns (out: seq<Register<V>>)
    requires Chained(rs)
    ensures |out| == |rs|
    ensures Chained(out)
    ensures |rs| > 0 ==> out[0].stored == rs[0].input
    ensures forall i :: 0 < i < |rs| ==> out[i].stored == rs[i - 1].stored
  {
    out := rs;
    var i := 0;
    while i < |out|
      invariant 0 <= i <= |out| == |rs|
      invariant forall k :: 0 <= k < |rs| ==> out[k].stored == rs[k].stored && out[k].input == rs[k].input
      invariant forall k :: 0 <= k < i ==> out[k].midtick == rs[k].input
    {
      out := out[i := TickPrep(out[i])];
      i := i + 1;
    }
    i := 0;
    while i < |out|
      invariant 0 <= i <= |out| == |rs|
      invariant forall k :: 0 <= k < |rs| ==> out[k].midtick == rs[k].input
      invariant forall k :: 0 <= k < i ==> out[k].stored == rs[k].input
      invariant forall k :: i <= k < |rs| ==> out[k].stored == rs[k].stored
      invariant Chained(out)
    {
      out := out[i := Tick(out[i])];
      if i + 1 < |out| {
        out := out[i + 1 := Drive(out[i + 1], out[i].stored)];
      }
      i := i + 1;
    }
  }

  /** What a clock that ticked each register to completion in turn would
      do to a chain: the first input would run through every register. */
  function TickInTurn<V>(rs: seq<Register<V>>, incoming: Option<V>): (out: seq<Register<V>>)
    decreases |rs|
  {
    if rs == [] then []
    else
      var r0 := Tick(TickPrep(Drive(rs[0], incoming)));
      [r0] + TickInTurn(rs[1..], r0.stored)
  }

  /** Ticking in turn loses every pre-edge value of the chain, which is
      why the clock prepares every register before committing any. */
  lemma {:induction false} TickInTurnLosesValues<V>(rs: seq<Register<V>>, incoming: Option<V>)
    ensures |TickInTurn(rs, incoming)| == |rs|
    ensures forall i :: 0 <= i < |rs| ==> TickInTurn(rs, incoming)[i].stored == incoming
    decreases |rs|
  {
    if rs != [] {
      TickInTurnLosesValues(rs[1..], incoming);
    }
  }

  const RegisterCount: nat := 32

  /** `RegisterBank#execute`, write half: every register re-latches its own
      stored value, then, when `reg_write` is 1, the register indexed by
      `write_reg.to_i` is driven with `write_data`.  There is no clamp for
      register 0.  An index Ruby cannot resolve leaves `nil << value`,
      which raises. */
  function Stage(stored: seq<Option<int>>, writeReg: Option<int>, writeData: Option<int>, regWrite: Option<int>)
    : (r: Result<seq<Option<int>>>)
    ensures regWrite != Some(1) ==> r == Ok(stored)
    ensures r.Err? <==> regWrite == Some(1) && RubyIndex(|stored|, ToI(writeReg)).None?
    ensures r.Ok? ==> |r.value| == |stored|
    ensures r.Ok? && regWrite == Some(1) ==>
              forall k :: 0 <= k < |stored| ==>
                r.value[k] == (if RubyIndex(|stored|, ToI(writeReg)) == Some(k) then writeData else stored[k])
  {
    if regWrite == Some(1) then
      match RubyIndex(|stored|, ToI(writeReg))
      case Some(k) => Ok(stored[k := writeData])
      case None => Err(NoRegister)
    else
      Ok(stored)
  }

  /** `RegisterBank#execute`, read half: a mux over the registers plus one
      extra slot; the extra slot carries `write_data` and is selected when
      the read index equals `write_reg` while `reg_write` is 1. */
  function ReadPort(stored: seq<Option<int>>, slot: Option<int>, readReg: Option<int>,
                    writeReg: Option<int>, writeData: Option<int>, regWrite: Option<int>): (r: Option<int>)
    ensures readReg == writeReg && regWrite == Some(1) ==> r == writeData
    ensures !(readReg == writeReg && regWrite == Some(1)) ==>
              && (ToI(readReg) == |stored| ==> r == slot)
              && (ToI(readReg) > |stored| ==> r == None)
  {
    if readReg == writeReg && regWrite == Some(1) then writeData
    else MuxSelect(stored + [slot], readReg)
  }

  /** For any real register index a read port returns the pending write
      data exactly when it reads the register being written, and the
      stored value otherwise; the extra mux slot is never seen. */
  lemma ReadPortBypass(stored: seq<Option<int>>, slot: Option<int>, k: int,
                       writeReg: Option<int>, writeData: Option<int>, regWrite: Option<int>)
    requires 0 <= k < |stored|
    ensures ReadPort(stored, slot, Some(k), writeReg, writeData, regWrite) ==
            (if Some(k) == writeReg && regWrite == Some(1) then writeData else stored[k])
  {
  }

  /** The bypass is faithful to the clock edge: what a read port returns
      for the register being written is what that register holds after
      the tick, when read with no write pending. */
  lemma BypassAgreesWithCommit(stored: seq<Option<int>>, slot: Option<int>, k: int,
                               writeData: Option<int>, later: Option<int>)
    requires 0 <= k < |stored|
    ensures Stage(stored, Some(k), writeData, Some(1)).Ok?
    ensures ReadPort(stored, slot, Some(k), Some(k), writeData, Some(1)) ==
            ReadPort(Stage(stored, Some(k), writeData, Some(1)).value, later, Some(k), Some(k), None, Some(0))
  {
    ReadPortBypass(Stage(stored, Some(k), writeData, Some(1)).value, later, k, Some(k), None, Some(0));
  }

  /** Register 0 is ordinary storage: a write to it is kept, and a read
      of it in the same cycle sees the written value. */
  lemma RegisterZeroNotClamped(stored: seq<Option<int>>, slot: Option<int>, v: int)
    requires |stored| == RegisterCount
    ensures Stage(stored, Some(0), Some(v), Some(1)) == Ok(stored[0 := Some(v)])
    ensures ReadPort(stored, slot, Some(0), Some(0), Some(v), Some(1)) == Some(v)
  {
  }
}

=== FILE: wrappers.dfy ===
/** Failure-compatible wrappers shared by the whole model. */
module Wrappers {

  /** A wire value or a stored value: `None` stands for Ruby's `nil`. */
  datatype Option<+T> = None | Some(value: T) {

    /** The carried value, or `default` when there is none. */
    function GetOr(default: T): T {
      match this
      case Some(v) => v
      case None => default
    }
  }

  /** The ways the simulator can stop abnormally: each one is a Ruby
      exception raised inside the core. */
  datatype Fault =
    | NilPack          // `Array#[]` returned nil and `#pack` was sent to it
    | IndexOutOfRange  // `Array#[]=` with an index below minus the length
    | NoRegister       // `RegisterBank` staged a write into a register that does not exist

  datatype Result<+T> = Ok(value: T) | Err(fault: Fault) {
    predicate IsFailure() { Err? }
    function PropagateFailure<U>(): Result<U>
      requires Err?
    {
      Err(fault)
    }
    function Extract(): T
      requires Ok?
    {
      value
    }
  }
}
